=== FILE: README.md ===
# edwh-uuid7 codec, modelled in Dafny

This project models the UUIDv7 codec in `src/edwh_uuid7/core.py`, using the
PostgreSQL-compatible layout.

`uuid7(ms)` builds a UUID from three parts:
- the 48-bit big-endian millisecond timestamp in octets 0-5, computed as `(ms_int << 16).to_bytes(8, 'big')[:6]`;
- a ten-byte tail holding the version nibble `7`, the variant bits `10`, a nanosecond "serial" meant to order UUIDs made in the same millisecond, and five bytes from `os.urandom`;
- a special case: the integer argument `0` returns the nil UUID.

`uuid7_to_datetime` checks `u.version == 7` and then reads the millisecond count back from the top six octets.

Modules:

- `Wrappers`: `Option` and `Result`.
- `Bits`: Python's `>>`, `<<`, `&` and `|` on non-negative integers. It also holds the power and division facts the proofs use.
- `Bytes`: Python's `int.to_bytes(len, 'big')` (with its two `OverflowError` cases) and `int.from_bytes(…, 'big')`. It also holds the comparison Python applies to `bytes`.
- `Order`: lexicographic order over any element order, as Python compares `bytes` and `str`.
- `Uuid7`: the UUID as 16 bytes. It covers the `Input` of `uuid7` once it is an integer millisecond count, `Encode` (`uuid7`), `Decode` (the integer part of `uuid7_to_datetime`), and `UUID.version` / `UUID.variant`, written the way Python's `uuid` module computes them from `UUID.int`.
- `Ordering`: how the bytes of encoded UUIDs compare. This covers the order across timestamps, the order within one millisecond, injectivity, and two concrete counterexamples for the as-written layout.
- `CanonicalText`: `str(UUID)`, the 32 lower-case hex digits of `UUID.int` split 8-4-4-4-12. The module proves that text order equals byte order, and it proves the text prefixes the tests check.

`Encode` has two parameters in place of ambient state:
- The clock reading `time.time_ns()` is the parameter `nowNs`.
- The entropy `os.urandom(5)` is the parameter `rand5`.

A `Layout` parameter chooses where the serial goes in octets 6-10:
- `AsWritten` is core.py's layout.
- `Contiguous` is the corrected layout described under Findings.

Every layout-generic lemma holds for both layouts.

The docstring of `uuid7` says its argument counts milliseconds, but the code computes `int(ms * 1000)`. So an integer argument `n` becomes the millisecond count `n * 1000`, and the model follows the code (`Uuid7.IntArgument`).

## Model

| member | source | states |
|---|---|---|
| Uuid7.IntArgument | src/edwh_uuid7/core.py:31-42 | an `int` argument takes the sentinel path exactly when it is zero; any other argument becomes a millisecond count that is a whole multiple of 1000, namely 1000 times the argument |
| Uuid7.Serial | src/edwh_uuid7/core.py:50 | the serial is below 10^9 and differs from the clock reading by a whole number of seconds |
| Bytes.ToBytes | src/edwh_uuid7/core.py:45 | `n.to_bytes(len, 'big')` succeeds exactly when 0 <= n < 256^len, raising the negative-number overflow error below that and the too-big error above; on success it gives `len` bytes whose big-endian value is n |
| Bytes.FromBE | src/edwh_uuid7/core.py:91 | `int.from_bytes(b, 'big')` is below 256^len(b); `Bytes.FromBytesRoundTrip` shows that `to_bytes` at the same width inverts it |
| Bytes.FromBytesRoundTrip | src/edwh_uuid7/core.py:90-91 | `int.from_bytes(b, 'big').to_bytes(len(b), 'big') == b` for every byte string b |
| Bytes.ToBytesOrder | src/edwh_uuid7/core.py:45 | integers that fit the width compare exactly as their `to_bytes` encodings do |
| Uuid7.TimestampBytes | src/edwh_uuid7/core.py:45 | the timestamp bytes exist exactly when 0 <= ms_int < 2^48; they are six bytes whose big-endian value is ms_int; a negative count and a count of 2^48 or more fail with the two `to_bytes` overflow errors |
| Uuid7.SerialFields | src/edwh_uuid7/core.py:56-62 | five serial bytes, the third carrying the variant bits `10` in its top two bits |
| Uuid7.Tail | src/edwh_uuid7/core.py:53-69 | the ten-byte tail ends with the five entropy bytes, its first byte has high nibble 7, and its third byte has top bits `10` |
| Uuid7.Encode | src/edwh_uuid7/core.py:31-72 | the integer zero gives the nil UUID; a millisecond count succeeds exactly when it fits in 48 bits, and otherwise fails with the matching overflow error; on success, octets 0-5 read back as the count, the version and variant tags are set, and octets 11-15 are the entropy bytes |
| Uuid7.VariantOf | src/edwh_uuid7/core.py:86 | `UUID.variant`, computed from three bit tests on the 128-bit integer, is the variant the top bits of octet 8 give (0xxx NCS, 10xx RFC 4122, 110x Microsoft, 111x future) |
| Uuid7.Version | src/edwh_uuid7/core.py:86 | `UUID.version`, computed as `(int >> 76) & 0xf`, is the high nibble of octet 6 when octet 8 starts with the bits `10`, and None for any other variant |
| Uuid7.VersionGuard | src/edwh_uuid7/core.py:86-87 | `u.version == 7` holds exactly when octet 6 has high nibble 7 and octet 8 has top bits `10` |
| Uuid7.TopSixBytes | src/edwh_uuid7/core.py:90-91 | appending two zero bytes and shifting right by 16 gives back the big-endian value of the first six octets |
| Uuid7.Decode | src/edwh_uuid7/core.py:86-91 | decoding gives None exactly when the version-7 tags are missing; otherwise it gives the value of octets 0-5, which is below 2^48 |
| Uuid7.VersionAndVariant | src/edwh_uuid7/core.py:59-69 | every UUID `uuid7` encodes has the RFC 4122 variant and version 7 |
| Uuid7.RoundTrip | src/edwh_uuid7/core.py:42-91 | decoding an encoded UUID gives back its millisecond count, for every count below 2^48, clock reading and entropy |
| Uuid7.NilSentinel | src/edwh_uuid7/core.py:31-33 | `uuid7(0)` is the nil UUID, whatever the clock and entropy, and the nil UUID decodes to None |
| Uuid7.NcsHasNoVersion | src/edwh_uuid7/core.py:86-87 | a UUID whose octet 8 is below 0x80 has the NCS variant and no version, so decoding rejects it |
| Uuid7.IntArgumentMillis | src/edwh_uuid7/core.py:42 | a nonzero integer argument `n` is `n * 1000` milliseconds: a negative argument fails as negative; an argument above 281,474,976,710 fails as too big; otherwise the UUID decodes to `n * 1000` |
| Ordering.AsWrittenFields | src/edwh_uuid7/core.py:56-62 | for every serial below 10^9, core.py's five fields are 0, serial bits 24-29, `0x80` plus bits 16-21, bits 8-15 and bits 0-7; so the `serial >> 32` field is always zero |
| Ordering.AsWrittenOctets | src/edwh_uuid7/core.py:56-69 | under core.py's layout, octet 6 is always exactly 0x70, and octet 7 is serial bits 24-29, never above 0x3B |
| Ordering.ContiguousFields | src/edwh_uuid7/core.py:47-62 | the corrected layout's fields hold serial bits 26-29, 18-25, 12-17 (below the variant bits), 4-11 and 0-3 |
| Ordering.SerialKey | src/edwh_uuid7/core.py:56-62 | the serial bits that a layout stores in octets 6-10 form a number below 2^36 for every serial below 10^9 |
| Ordering.TailValue | src/edwh_uuid7/core.py:53-69 | octets 6-10 read as one integer are the version bits, the variant bit and the layout's serial key |
| Ordering.EncodedPrefix | src/edwh_uuid7/core.py:71 | octets 0-10 read as one integer are the millisecond count placed above the 40 tail bits |
| Ordering.EncodeOrder | src/edwh_uuid7/core.py:45-72 | two encoded UUIDs compare as bytes exactly as the triples (millisecond count, serial key, entropy bytes) compare lexicographically |
| Ordering.EncodeInjective | src/edwh_uuid7/core.py:45-72 | two encoded UUIDs are equal exactly when their millisecond counts, serial keys and entropy bytes are equal |
| Ordering.ContiguousKeyOrder | src/edwh_uuid7/core.py:47-49 | the corrected key orders and separates serials exactly as the serials themselves |
| Ordering.AsWrittenKeyOrder | src/edwh_uuid7/core.py:56-62 | serials whose bits 22-23 agree compare, and are equal, exactly as their as-written keys do |
| Ordering.AsWrittenKeyForgets | src/edwh_uuid7/core.py:59-60 | serials that differ only in bits 22-23 have the same as-written key |
| Ordering.TimestampOrder | tests/test_core.py:76-82 | a smaller millisecond count gives a byte-smaller UUID, whatever the clock readings and entropy |
| Ordering.IntArgumentOrder | tests/test_core.py:76-82 | `uuid7(n1) < uuid7(n2)` as bytes for integer arguments 0 <= n1 < n2 with n2 * 1000 < 2^48; zero gives the nil UUID, which sorts first |
| Ordering.NilLeast | src/edwh_uuid7/core.py:31-33 | the nil UUID sorts below every UUID carrying the version-7 tags |
| Ordering.AsWrittenSameMillisecond | src/edwh_uuid7/core.py:47-62 | in one millisecond under core.py's layout, if the serials agree in bits 22-23, UUIDs order by serial and then by entropy bytes |
| Ordering.AsWrittenOutOfOrder | tests/test_core.py:84-90 | in one millisecond under core.py's layout, serial 2^22 encodes below serial 2^22 - 1, whatever the entropy bytes |
| Ordering.AsWrittenCollision | src/edwh_uuid7/core.py:59-60 | under core.py's layout, with one explicit millisecond argument and equal entropy bytes, the clock readings 0 and 2^22 ns give the same UUID |
| Ordering.AsWrittenCloseSerials | src/edwh_uuid7/core.py:36-62 | under core.py's layout, serials less than 2^22 ns apart always give distinct UUIDs in one millisecond, whatever the entropy bytes; in exact arithmetic two no-argument calls in one millisecond lie within one second and less than 10^6 ns apart, so they never collide through the serial |
| Ordering.AsWrittenKeyHigh | src/edwh_uuid7/core.py:56-62 | serials that differ in bits 24-29 (the six bits of octet 7) keep distinct keys under core.py's layout |
| Ordering.AsWrittenSerialsApart | src/edwh_uuid7/core.py:36-62 | under core.py's layout, serials that differ in bits 24-29 always give distinct UUIDs in one millisecond, whatever the entropy bytes; this covers two readings on either side of a second boundary that round to one millisecond count |
| Ordering.SecondBoundaryInversion | src/edwh_uuid7/core.py:36-62 | readings 1746057599999999900 and 1746057600000000100 (serials 999999900 and 100) given one millisecond count encode in reverse order under either layout, whatever the entropy bytes |
| Ordering.ContiguousSameMillisecond | src/edwh_uuid7/core.py:47-49 | in one millisecond under the corrected layout, UUIDs order exactly by serial and then by entropy bytes |
| Ordering.ContiguousInjective | src/edwh_uuid7/core.py:47-49 | under the corrected layout, equal UUIDs come only from equal millisecond counts, serials and entropy bytes |
| CanonicalText.Canonical | tests/test_core.py:79 | `str(u)` is 36 characters with dashes at positions 8, 13, 18 and 23; with the dashes removed it is the 32-digit lower-case hex of `u.int` |
| CanonicalText.HexOrder | tests/test_core.py:79-82 | fixed-width lower-case hex of two numbers below the width's limit orders, and is equal, exactly as the numbers do |
| CanonicalText.DashedOrder | tests/test_core.py:79-82 | inserting the dashes of the 8-4-4-4-12 form keeps both string order and equality of 32-digit strings |
| CanonicalText.CanonicalOrder | tests/test_core.py:79-82 | `str(u1) < str(u2)` exactly when `u1.bytes < u2.bytes`, and the strings are equal exactly when the UUIDs are |
| CanonicalText.HexPrefix | tests/test_core.py:96-99 | the first k digits of a count-digit hex string are the hex of the number divided by 16^(count-k) |
| CanonicalText.VersionText | tests/test_core.py:97 | a UUID with high nibble 7 in octet 6 has text starting with eight timestamp digits, a dash, four timestamp digits, a dash and `7` |
| CanonicalText.TimestampText | tests/test_core.py:96-99 | the text of an encoded UUID starts with the 12 hex digits of its millisecond count, dashed as 8-4, then `-7` |
| CanonicalText.OneMillisecondText | tests/test_core.py:97 | the UUID for 1 millisecond has text starting `00000000-0001-7` |
| CanonicalText.May2025Text | tests/test_core.py:99 | the UUID for 1746057600001 ms (2025-05-01 00:00:00.001 UTC) has text starting `01968` |
| CanonicalText.TextTimestampOrder | tests/test_core.py:76-82 | a smaller millisecond count gives a smaller canonical string, whatever the clock readings and entropy |
| Order.LexTotal | tests/test_core.py:82 | Python's sequence comparison, which `sorted` uses, is a strict total order whenever the element order is: exactly one of `a < b`, `a == b`, `b < a` holds |
| CanonicalText.TextLessTotal | tests/test_core.py:82 | `<` on `str` is a strict total order, the order `sorted(uuids)` sorts by |
| Bytes.LexIffValue | tests/test_core.py:82 | equal-length byte strings compare under `<` on `bytes` as their `int.from_bytes(b, 'big')` values do, and are equal exactly when the values are |
| CanonicalText.IntArgumentTextOrder | tests/test_core.py:76-82 | `str(uuid7(i))` rises with the integer argument i: the list the test builds is sorted |
| CanonicalText.AsWrittenOutOfOrderText | tests/test_core.py:84-90 | the same-millisecond inversion of core.py's layout also shows in the canonical strings |
| CanonicalText.ContiguousSameMillisecondText | tests/test_core.py:84-90 | under the corrected layout, the canonical strings of one millisecond sort by serial and then by entropy bytes |

## Left out

- Float arguments and the `None` argument (`ms = now_ns / 1_000_000_000`, then `int(ms * 1000)` on a float) are not modelled, because that is floating-point arithmetic. `Input.Millis` takes the integer `ms_int` that line 42 produces.
- `OneMillisecondText` and `May2025Text` start from the millisecond counts 1 and 1746057600001. The tests reach those counts through `datetime_to_uuid7`.
- `time.time_ns()` and `os.urandom(5)` are not modelled: they are the parameters `nowNs` and `rand5`.
- The serial-ordering lemmas compare two given clock readings. How the real clock advances is not modelled.
- `datetime.fromtimestamp(ms / 1000, tz=…)` at core.py line 93 is not modelled, because it is floating point plus timezone display. `Decode` stops at the integer millisecond count.
- `datetime_to_uuid7` and `dateutil`'s parser are not modelled, because they are calendar parsing and float seconds. Their result enters `uuid7` on the float path.
- A float argument is not modelled. A float argument of `0.0`, or any float below 0.001, gives `ms_int == 0` and so a tagged UUID for millisecond 0 (`Encode` on `Millis(0)`), not the nil UUID, because only the `int` zero takes the sentinel path.
- Python's `isinstance(ms, int)` is not modelled. `bool` counts as `int`, so `uuid7(False)` also takes the sentinel path. The model only has the integer-zero `IntZero` input.
- The `uuid.UUID` class is modelled only through its 16 bytes, `int`, `version`, `variant` and `str`.
- The 1000-call uniqueness test is not modelled, because it depends on the real clock and entropy. `Ordering.EncodeInjective` states exactly when two encodings collide. `Ordering.AsWrittenCloseSerials` shows that calls less than 2^22 ns apart in one millisecond never collide through the serial; in exact arithmetic that covers the test's no-argument calls, and `Ordering.AsWrittenSerialsApart` covers the second-boundary pair described next. The collision of `Ordering.AsWrittenCollision` needs an explicit millisecond argument.
- The float rounding of `ms_int` across a second boundary is not modelled as arithmetic, because it is floating point. On lines 39 and 42, `now_ns / 1_000_000_000` and `int(ms * 1000)` round the readings 1746057599999999900 and 1746057600000000100, which are 200 ns apart, to the same millisecond 1746057600000. Their serials are 999999900 and 100, so the later call sorts first under both layouts (`Ordering.SecondBoundaryInversion`); the contiguous layout does not repair this case. The two UUIDs still differ (`Ordering.AsWrittenSerialsApart`).
- The `uuid4` invalid-version test is not modelled as a function: a `uuid4` UUID has version nibble 4, and `Uuid7.Decode` returns None exactly when the version-7 tags are missing.

## Findings

| source | as written | input that shows it | evidently intended | confidence | as-written member | corrected member |
|---|---|---|---|---|---|---|
| src/edwh_uuid7/core.py:56-62 | The 30-bit serial is split so that octet 7 gets bits 24-29 and octet 8 gets only bits 16-21. Bits 22-23 are stored nowhere, and the `serial >> 32` field is always zero. | Same millisecond, clock readings ≡ 4194303 and ≡ 4194304 (mod 10^9): the later UUID sorts first, whatever the entropy bytes. | All serial bits stored in order, so UUIDs made in one millisecond sort by serial, as the comment at lines 47-49 says. | not executed | Ordering.AsWrittenOutOfOrder | Ordering.ContiguousSameMillisecond |
| src/edwh_uuid7/core.py:59-60 | Because bits 22-23 are dropped, serials 2^22 apart share the same octets 6-10. | Same explicit timestamp argument, same entropy bytes, clock readings 0 and 4194304: both calls return the same UUID. Calls without an argument cannot reach this in exact arithmetic, because their readings within one millisecond are less than 2^22 ns apart (`Ordering.AsWrittenCloseSerials`); the float-rounded pair across a second boundary has serials differing in bits 24-29 (`Ordering.AsWrittenSerialsApart`). | Distinct serials in one millisecond give distinct UUIDs. | not executed | Ordering.AsWrittenCollision | Ordering.ContiguousInjective |

The corrected layout, `Layout.Contiguous`, keeps the fixed version and variant bits:
- octet 6 holds `0x70` plus serial bits 26-29;
- octet 7 holds bits 18-25;
- octet 8 holds `0x80` plus bits 12-17;
- octet 9 holds bits 4-11;
- the high nibble of octet 10 holds bits 0-3.

Under this layout, `Ordering.ContiguousKeyOrder` shows the stored key is strictly monotone in the serial. Every layout-generic result holds for it: the tags, the round trip, the timestamp order and the text prefixes.

=== FILE: bits.dfy ===
/** Python integer bit operations on non-negative integers, and the
    division facts the rest of the model leans on. */
module Bits {

  /** `b` raised to the `k`-th power. */
  function Pow(b: nat, k: nat): (r: nat)
    ensures b > 0 ==> r > 0
  {
    if k == 0 then 1 else b * Pow(b, k - 1)
  }

  /** Python's `x >> k` for a non-negative `x`: halve `k` times, rounding down. */
  function Shr(x: nat, k: nat): nat {
    if k == 0 then x else Shr(x, k - 1) / 2
  }

  /** Python's `x << k`: double `k` times; exact for every integer, negative ones included. */
  function Shl(x: int, k: nat): int {
    if k == 0 then x else 2 * Shl(x, k - 1)
  }

  /** Python's `a & b` for non-negative integers, one bit at a time from the bottom. */
  function BitAnd(a: nat, b: nat): (r: nat)
    ensures r <= a && r <= b
    decreases a
  {
    if a == 0 || b == 0 then 0
    else 2 * BitAnd(a / 2, b / 2) + (if a % 2 == 1 && b % 2 == 1 then 1 else 0)
  }

  /** Python's `a | b` for non-negative integers, one bit at a time from the bottom. */
  function BitOr(a: nat, b: nat): (r: nat)
    ensures a <= r && b <= r && r <= a + b
    decreases a
  {
    if a == 0 then b
    else if b == 0 then a
    else 2 * BitOr(a / 2, b / 2) + (if a % 2 == 1 || b % 2 == 1 then 1 else 0)
  }

  /** Multiplying by a non-negative factor keeps `<=`. */
  lemma MulLe(a: int, b: int, c: int)
    requires a <= b && c >= 0
    ensures a * c <= b * c
  {
    assert b * c - a * c == (b - a) * c;
  }

  /** Euclidean division: `x == (x / d) * d + x % d` with the remainder in `[0, d)`. */
  lemma DivMod(x: int, d: int)
    requires d > 0
    ensures x == (x / d) * d + x % d && 0 <= x % d < d
  {
  }

  /** Quotient and remainder are the only ones with `0 <= r < d`. */
  lemma DivModUnique(x: int, d: int, q: int, r: int)
    requires d > 0 && 0 <= r < d && x == q * d + r
    ensures x / d == q && x % d == r
  {
    var q', r' := x / d, x % d;
    DivMod(x, d);
    if q' > q {
      assert (q' - q) * d == r - r';
      MulLe(1, q' - q, d);
    } else if q' < q {
      assert (q - q') * d == r' - r;
      MulLe(1, q - q', d);
    }
  }

  /** A value below the modulus is its own remainder. */
  lemma ModSmall(x: nat, d: nat)
    requires x < d
    ensures x % d == x && x / d == 0
  {
    DivModUnique(x, d, 0, x);
  }

  /** `((t * p + u) * d + r)` regrouped around `d * p`. */
  lemma Regroup(t: int, p: int, u: int, d: int, r: int)
    ensures (t * p + u) * d + r == t * (d * p) + (u * d + r)
  {
  }

  /** A remainder mod `p`, scaled by `d`, plus a remainder mod `d` stays below `d * p`. */
  lemma MixedRemainder(u: nat, p: nat, d: nat, r: nat)
    requires u < p && r < d
    ensures u * d + r < d * p
  {
    MulLe(u, p - 1, d);
    assert (p - 1) * d == d * p - d;
  }

  /** Numbers written with a high digit `h` and a low digit `l < b` compare as the
      pairs `(h, l)` compare lexicographically. */
  lemma PlaceValue(h1: int, l1: int, h2: int, l2: int, b: int)
    requires 0 <= l1 < b && 0 <= l2 < b
    ensures h1 * b + l1 < h2 * b + l2 <==> h1 < h2 || (h1 == h2 && l1 < l2)
    ensures h1 * b + l1 == h2 * b + l2 <==> h1 == h2 && l1 == l2
  {
    if h1 < h2 {
      MulLe(h1 + 1, h2, b);
    } else if h2 < h1 {
      MulLe(h2 + 1, h1, b);
    }
  }

  /** Dividing by `d` and then by `p` is dividing by `d * p`; the two remainders combine. */
  lemma DivDiv(x: nat, d: nat, p: nat)
    requires d > 0 && p > 0
    ensures x / d / p == x / (d * p)
    ensures x / d % p * d + x % d == x % (d * p)
  {
    var q, r := x / d, x % d;
    var t, u := q / p, q % p;
    DivMod(x, d);
    DivMod(q, p);
    Regroup(t, p, u, d, r);
    MixedRemainder(u, p, d, r);
    DivModUnique(x, d * p, t, u * d + r);
  }

  /** `x & (2^k - 1)` keeps the low `k` bits. */
  lemma {:induction false} AndLowMask(x: nat, k: nat)
    ensures BitAnd(x, Pow(2, k) - 1) == x % Pow(2, k)
  {
    if k == 0 {
      assert Pow(2, k) == 1;
      DivModUnique(x, 1, x, 0);
    } else if x == 0 {
      ModSmall(0, Pow(2, k));
    } else {
      var p := Pow(2, k - 1);
      assert Pow(2, k) == 2 * p;
      DivModUnique(2 * p - 1, 2, p - 1, 1);
      AndLowMask(x / 2, k - 1);
      DivDiv(x, 2, p);
    }
  }

  /** `x | (h << k)` adds `h << k` when `x` has no bits at position `k` or above. */
  lemma {:induction false} OrHighBits(x: nat, h: nat, k: nat)
    requires x < Pow(2, k)
    ensures BitOr(x, h * Pow(2, k)) == x + h * Pow(2, k)
  {
    if k == 0 || x == 0 || h == 0 {
    } else {
      var p := Pow(2, k - 1);
      assert h * Pow(2, k) == 2 * (h * p);
      OrHighBits(x / 2, h, k - 1);
    }
  }

  /** `x & (1 << k)` is zero exactly when bit `k` of `x` is clear. */
  lemma {:induction false} AndSingleBit(x: nat, k: nat)
    ensures BitAnd(x, Pow(2, k)) == 0 <==> x / Pow(2, k) % 2 == 0
  {
    if k == 0 {
      assert Pow(2, k) == 1;
      DivModUnique(x, 1, x, 0);
    } else if x == 0 {
      ModSmall(0, Pow(2, k));
    } else {
      var p := Pow(2, k - 1);
      assert Pow(2, k) == 2 * p;
      DivModUnique(2 * p, 2, p, 0);
      assert BitAnd(x, 2 * p) == 2 * BitAnd(x / 2, p);
      AndSingleBit(x / 2, k - 1);
      DivDiv(x, 2, p);
    }
  }

  /** Adding an even number keeps the parity. */
  lemma Parity(y: int, x: int, c: int)
    requires y == 2 * x + c
    ensures y % 2 == c % 2
  {
  }

  /** Multiplication associates. */
  lemma MulAssoc(a: int, b: int, c: int)
    ensures a * (b * c) == (a * b) * c
  {
  }

  /** Exponents add. */
  lemma {:induction false} PowAdd(b: nat, m: nat, n: nat)
    ensures Pow(b, m + n) == Pow(b, m) * Pow(b, n)
  {
    if m > 0 {
      PowAdd(b, m - 1, n);
      MulAssoc(b, Pow(b, m - 1), Pow(b, n));
    }
  }

  /** The shift amounts of the serial fields, up to two bytes. */
  lemma PowersOfTwo()
    ensures Pow(2, 4) == 0x10 && Pow(2, 6) == 0x40 && Pow(2, 8) == 0x100
    ensures Pow(2, 12) == 0x1000 && Pow(2, 16) == 0x1_0000 && Pow(2, 18) == 0x4_0000
  {
    assert Pow(2, 4) == 0x10 && Pow(2, 6) == 0x40;
    PowAdd(2, 4, 4);
    PowAdd(2, 8, 4);
    PowAdd(2, 8, 8);
    PowAdd(2, 16, 2);
  }

  /** The shift amounts of the serial fields above two bytes. */
  lemma PowersOfTwoHigh()
    ensures Pow(2, 22) == 0x40_0000 && Pow(2, 24) == 0x100_0000
    ensures Pow(2, 26) == 0x400_0000 && Pow(2, 32) == 0x1_0000_0000
  {
    PowersOfTwo();
    PowAdd(2, 16, 6);
    PowAdd(2, 16, 8);
    PowAdd(2, 24, 2);
    PowAdd(2, 16, 16);
  }

  /** The bits of `UUID.int` that `UUID.variant` tests. */
  lemma PowersOfTwoWide()
    ensures Pow(2, 61) == 0x2000_0000_0000_0000 && Pow(2, 62) == 0x4000_0000_0000_0000
    ensures Pow(2, 63) == 0x8000_0000_0000_0000
  {
    assert Pow(2, 64) == 0x1_0000_0000_0000_0000 by {
      PowersOf256();
      BytePowers(8);
    }
    assert Pow(2, 3) == 8;
    PowAdd(2, 61, 3);
    PowAdd(2, 62, 2);
    PowAdd(2, 63, 1);
  }

  /** The shift `UUID.version` applies to `UUID.int`. */
  lemma PowerOfTwoVersion()
    ensures Pow(2, 76) == 0x1000_0000_0000_0000_0000
  {
    assert Pow(2, 80) == 0x1_0000_0000_0000_0000_0000 by {
      PowersOf256();
      BytePowers(10);
    }
    PowersOfTwo();
    PowAdd(2, 76, 4);
  }

  /** A byte is eight bits: `256^k == 2^(8k)`. */
  lemma {:induction false} BytePowers(k: nat)
    ensures Pow(256, k) == Pow(2, 8 * k)
  {
    if k > 0 {
      BytePowers(k - 1);
      PowAdd(2, 8, 8 * (k - 1));
      PowersOfTwo();
    }
  }

  /** The powers of 256 (byte widths) the UUID layout uses. */
  lemma PowersOf256()
    ensures Pow(256, 2) == 0x1_0000 && Pow(256, 5) == 0x100_0000_0000
    ensures Pow(256, 6) == 0x1_0000_0000_0000 && Pow(256, 7) == 0x100_0000_0000_0000
    ensures Pow(256, 8) == 0x1_0000_0000_0000_0000 && Pow(256, 9) == 0x100_0000_0000_0000_0000
    ensures Pow(256, 10) == 0x1_0000_0000_0000_0000_0000
  {
    assert Pow(256, 2) == 0x1_0000;
    assert Pow(256, 3) == 0x100_0000;
    PowAdd(256, 3, 2);
    PowAdd(256, 3, 3);
    PowAdd(256, 5, 2);
    PowAdd(256, 6, 2);
    PowAdd(256, 6, 3);
    PowAdd(256, 5, 5);
  }

  /** `x >> k` is floor division by `2^k`. */
  lemma {:induction false} ShrIsDiv(x: nat, k: nat)
    ensures Shr(x, k) == x / Pow(2, k)
  {
    if k == 0 {
      DivModUnique(x, 1, x, 0);
    } else {
      ShrIsDiv(x, k - 1);
      DivDiv(x, Pow(2, k - 1), 2);
      assert Pow(2, k - 1) * 2 == Pow(2, k);
    }
  }

  /** `(x >> k) & (2^w - 1)`: the `w` bits of `x` starting at bit `k`. */
  lemma ShrMask(x: nat, k: nat, w: nat)
    ensures BitAnd(Shr(x, k), Pow(2, w) - 1) == x / Pow(2, k) % Pow(2, w)
  {
    ShrIsDiv(x, k);
    AndLowMask(x / Pow(2, k), w);
  }

  /** `x << k` is multiplication by `2^k`. */
  lemma {:induction false} ShlIsMul(x: int, k: nat)
    ensures Shl(x, k) == x * Pow(2, k)
  {
    if k > 0 {
      ShlIsMul(x, k - 1);
      MulAssoc(2, x, Pow(2, k - 1));
      MulAssoc(x, 2, Pow(2, k - 1));
    }
  }
}

=== FILE: bytes.dfy ===
/** Python `bytes` as sequences of integers in [0, 256), with `int.to_bytes` and
    `int.from_bytes` in big-endian unsigned form. */
module Bytes {
  import opened Wrappers
  import opened Bits
  import opened Order

  type byte = x: int | 0 <= x < 256

  /** The exception `int.to_bytes(length, 'big')` raises: both are Python's `OverflowError`. */
  datatype Overflow =
    | NegativeToUnsigned   // "can't convert negative int to unsigned"
    | TooBigToConvert      // "int too big to convert"

  /** `int.from_bytes(s, 'big')`. */
  function FromBE(s: seq<byte>): (r: nat)
    ensures r < Pow(256, |s|)
  {
    if |s| == 0 then 0 else FromBE(s[..|s| - 1]) * 256 + s[|s| - 1]
  }

  /** The low `len` bytes of `n`, most significant first. */
  function BytesOf(n: nat, len: nat): (s: seq<byte>)
    ensures |s| == len
    ensures FromBE(s) == n % Pow(256, len)
  {
    if len == 0 then []
    else
      var init := BytesOf(n / 256, len - 1);
      assert (init + [n % 256])[..len - 1] == init;
      DivDiv(n, 256, Pow(256, len - 1));
      init + [n % 256]
  }

  /** `n.to_bytes(len, 'big')`: raises `OverflowError` unless `0 <= n < 256^len`. */
  function ToBytes(n: int, len: nat): (r: Result<seq<byte>, Overflow>)
    ensures r.Success? <==> 0 <= n < Pow(256, len)
    ensures n < 0 ==> r == Failure(NegativeToUnsigned)
    ensures n >= Pow(256, len) ==> r == Failure(TooBigToConvert)
    ensures r.Success? ==> |r.value| == len && FromBE(r.value) == n
  {
    if n < 0 then Failure(NegativeToUnsigned)
    else if n >= Pow(256, len) then Failure(TooBigToConvert)
    else
      ModSmall(n, Pow(256, len));
      Success(BytesOf(n, len))
  }

  /** Byte order; Python compares `bytes` element by element with it. */
  predicate ByteLt(x: byte, y: byte) {
    x < y
  }

  /** Python's `a < b` on `bytes`. */
  predicate BytesLess(a: seq<byte>, b: seq<byte>) {
    Lex(a, b, ByteLt)
  }

  /** A byte string splits into everything but its last byte, then that byte. */
  lemma SplitLast(s: seq<byte>)
    requires |s| > 0
    ensures s == s[..|s| - 1] + [s[|s| - 1]]
    ensures FromBE(s) == FromBE(s[..|s| - 1]) * 256 + s[|s| - 1]
  {
    var n := |s| - 1;
    assert FromBE(s) == FromBE(s[..n]) * 256 + s[n];
    assert s == s[..n] + [s[n]];
  }

  /** Two byte strings of one length are equal exactly when their integers are,
      and one is smaller exactly when its integer is: big-endian order is numeric order. */
  lemma {:induction false} LexIffValue(a: seq<byte>, b: seq<byte>)
    requires |a| == |b|
    ensures a == b <==> FromBE(a) == FromBE(b)
    ensures BytesLess(a, b) <==> FromBE(a) < FromBE(b)
    decreases |a|
  {
    if |a| > 0 {
      var n := |a| - 1;
      SplitLast(a);
      SplitLast(b);
      LexIffValue(a[..n], b[..n]);
      LexSnoc(a[..n], a[n], b[..n], b[n], ByteLt);
    }
  }

  /** `int.from_bytes` of a concatenation: the first part is shifted up by the second's width. */
  lemma {:induction false} FromBEConcat(a: seq<byte>, b: seq<byte>)
    ensures FromBE(a + b) == FromBE(a) * Pow(256, |b|) + FromBE(b)
    decreases |b|
  {
    if |b| == 0 {
      assert a + b == a;
      assert Pow(256, |b|) == 1;
    } else {
      var n := |b| - 1;
      assert Pow(256, |b|) == Pow(256, n) * 256;
      var c := a + b;
      assert c[..|c| - 1] == a + b[..n];
      assert c[|c| - 1] == b[n];
      assert FromBE(c) == FromBE(a + b[..n]) * 256 + b[n];
      FromBEConcat(a, b[..n]);
      ShiftOneByte(FromBE(a), Pow(256, n), FromBE(b[..n]), b[n]);
    }
  }

  /** One more byte at the bottom shifts everything above it up by 256. */
  lemma ShiftOneByte(x: int, p: int, y: int, d: int)
    ensures (x * p + y) * 256 + d == x * (p * 256) + (y * 256 + d)
  {
  }

  /** The integer of five bytes, written out by place value. */
  lemma FromBE5(s: seq<byte>)
    requires |s| == 5
    ensures FromBE(s) == s[0] as int * 0x1_0000_0000 + s[1] as int * 0x100_0000 + s[2] as int * 0x1_0000 + s[3] as int * 0x100 + s[4]
  {
    assert s[..4][..3] == s[..3];
    assert s[..3][..2] == s[..2];
    assert s[..2][..1] == s[..1];
    assert s[..1][..0] == [];
  }

  /** The leading `i` bytes of a big-endian string are its integer shifted down past
      the remaining bytes, and the remaining bytes are what that shift drops. */
  lemma PrefixValue(s: seq<byte>, i: nat)
    requires i <= |s|
    ensures FromBE(s) / Pow(256, |s| - i) == FromBE(s[..i])
    ensures FromBE(s) % Pow(256, |s| - i) == FromBE(s[i..])
  {
    assert s == s[..i] + s[i..];
    FromBEConcat(s[..i], s[i..]);
    DivModUnique(FromBE(s), Pow(256, |s| - i), FromBE(s[..i]), FromBE(s[i..]));
  }

  /** The integer above octet `i`, and that octet, as one quotient. */
  lemma OctetValue(s: seq<byte>, i: nat)
    requires i < |s|
    ensures FromBE(s) / Pow(256, |s| - i - 1) == FromBE(s[..i]) * 256 + s[i]
  {
    PrefixValue(s, i + 1);
    assert s[..i + 1][..i] == s[..i];
    SplitLast(s[..i + 1]);
  }

  /** `int.from_bytes(s, 'big').to_bytes(len(s), 'big') == s`: the two conversions are
      inverse at a fixed width. */
  lemma FromBytesRoundTrip(s: seq<byte>)
    ensures ToBytes(FromBE(s), |s|) == Success(s)
  {
    ModSmall(FromBE(s), Pow(256, |s|));
    LexIffValue(BytesOf(FromBE(s), |s|), s);
  }

  /** `to_bytes` at a fixed width keeps the order: in-range integers compare as their
      big-endian encodings do. */
  lemma ToBytesOrder(m1: nat, m2: nat, len: nat)
    requires m1 < Pow(256, len) && m2 < Pow(256, len)
    ensures ToBytes(m1, len).Success? && ToBytes(m2, len).Success?
    ensures m1 < m2 <==> BytesLess(ToBytes(m1, len).value, ToBytes(m2, len).value)
  {
    ModSmall(m1, Pow(256, len));
    ModSmall(m2, Pow(256, len));
    LexIffValue(BytesOf(m1, len), BytesOf(m2, len));
  }
}

=== FILE: order.dfy ===
/** Lexicographic order, the way Python compares `bytes` and `str` values. */
module Order {

  /** `a < b` lexicographically with respect to the element order `lt`: the first
      position where the sequences differ decides, and a proper prefix is smaller. */
  predicate Lex<T(==)>(a: seq<T>, b: seq<T>, lt: (T, T) -> bool)
    decreases |a|
  {
    |b| > 0 && (|a| == 0 || lt(a[0], b[0]) || (a[0] == b[0] && Lex(a[1..], b[1..], lt)))
  }

  /** Comparing two concatenations whose first parts have equal length: the first
      parts decide, and only when they are equal do the second parts. */
  lemma {:induction false} LexConcat<T>(x1: seq<T>, y1: seq<T>, x2: seq<T>, y2: seq<T>, lt: (T, T) -> bool)
    requires |x1| == |x2|
    ensures Lex(x1 + y1, x2 + y2, lt) <==> Lex(x1, x2, lt) || (x1 == x2 && Lex(y1, y2, lt))
    decreases |x1|
  {
    if |x1| == 0 {
      assert x1 + y1 == y1 && x2 + y2 == y2;
    } else {
      assert (x1 + y1)[1..] == x1[1..] + y1;
      assert (x2 + y2)[1..] == x2[1..] + y2;
      LexConcat(x1[1..], y1, x2[1..], y2, lt);
      assert x1 == x2 <==> x1[0] == x2[0] && x1[1..] == x2[1..] by {
        if x1[0] == x2[0] && x1[1..] == x2[1..] {
          assert x1 == [x1[0]] + x1[1..] && x2 == [x2[0]] + x2[1..];
        }
      }
    }
  }

  /** Appending one element to equal-length sequences: the prefixes decide, then the last elements. */
  lemma LexSnoc<T>(a: seq<T>, x: T, b: seq<T>, y: T, lt: (T, T) -> bool)
    requires |a| == |b|
    ensures Lex(a + [x], b + [y], lt) <==> Lex(a, b, lt) || (a == b && lt(x, y))
  {
    LexConcat(a, [x], b, [y], lt);
    assert Lex([x], [y], lt) <==> lt(x, y);
  }

  /** A common first element leaves the comparison to the rest (for an irreflexive order). */
  lemma LexCons<T>(c: T, y1: seq<T>, y2: seq<T>, lt: (T, T) -> bool)
    requires !lt(c, c)
    ensures Lex([c] + y1, [c] + y2, lt) <==> Lex(y1, y2, lt)
    ensures [c] + y1 == [c] + y2 <==> y1 == y2
  {
    LexConcat([c], y1, [c], y2, lt);
    assert !Lex([c], [c], lt) by {
      assert [c][1..] == [];
    }
    assert ([c] + y1)[1..] == y1 && ([c] + y2)[1..] == y2;
  }

  /** Replacing the tails of two concatenations by tails that compare alike keeps the
      comparison, when the heads have equal length. */
  lemma LexCompose<T>(x1: seq<T>, y1: seq<T>, z1: seq<T>, x2: seq<T>, y2: seq<T>, z2: seq<T>, lt: (T, T) -> bool)
    requires |x1| == |x2|
    requires Lex(y1, y2, lt) <==> Lex(z1, z2, lt)
    requires y1 == y2 <==> z1 == z2
    ensures Lex(x1 + y1, x2 + y2, lt) <==> Lex(x1 + z1, x2 + z2, lt)
    ensures x1 + y1 == x2 + y2 <==> x1 + z1 == x2 + z2
  {
    LexConcat(x1, y1, x2, y2, lt);
    LexConcat(x1, z1, x2, z2, lt);
    if x1 + y1 == x2 + y2 {
      assert (x1 + y1)[..|x1|] == x1 && (x2 + y2)[..|x2|] == x2;
      assert (x1 + y1)[|x1|..] == y1 && (x2 + y2)[|x2|..] == y2;
    }
    if x1 + z1 == x2 + z2 {
      assert (x1 + z1)[..|x1|] == x1 && (x2 + z2)[..|x2|] == x2;
      assert (x1 + z1)[|x1|..] == z1 && (x2 + z2)[|x2|..] == z2;
    }
  }

  /** When the element order is a strict total order, so is `Lex`: of `a < b`, `a == b` and
      `b < a` exactly one holds, which is what sorting a list of sequences relies on. */
  lemma {:induction false} LexTotal<T>(a: seq<T>, b: seq<T>, lt: (T, T) -> bool)
    requires forall x, y :: !(lt(x, y) && lt(y, x))
    requires forall x, y :: lt(x, y) || x == y || lt(y, x)
    ensures Lex(a, b, lt) || a == b || Lex(b, a, lt)
    ensures !(Lex(a, b, lt) && Lex(b, a, lt))
    ensures !(Lex(a, b, lt) && a == b)
    decreases |a|
  {
    if |a| > 0 && |b| > 0 {
      LexTotal(a[1..], b[1..], lt);
      if a[0] == b[0] && a[1..] == b[1..] {
        assert a == [a[0]] + a[1..] && b == [b[0]] + b[1..];
      }
    }
  }
}

=== FILE: ordering.dfy ===
/** What the bytes of an encoded UUID say about the order and identity of the
    inputs: the timestamp, the nanosecond serial and the entropy bytes. */
module Ordering {
  import opened Bits
  import opened Bytes
  import opened Order
  import opened Uuid7

  /** The serial fields of core.py lines 56-62, each as the bits of `serial` it keeps.
      The top field is always zero: a serial below 10^9 has no bit 32 or above. */
  lemma AsWrittenFields(s: nat)
    requires s < NanosPerSecond
    ensures SerialFields(AsWritten, s) ==
      [0, s / 0x100_0000, 0x80 + s / 0x1_0000 % 0x40, s / 0x100 % 0x100, s % 0x100]
  {
    assert BitAnd(Shr(s, 32), 0x0F) == 0 by {
      ShrIsDiv(s, 32);
      PowersOfTwoHigh();
    }
    assert BitAnd(Shr(s, 24), 0xFF) == s / 0x100_0000 by {
      ShrMask(s, 24, 8);
      PowersOfTwo();
      PowersOfTwoHigh();
      ModSmall(s / 0x100_0000, 0x100);
    }
    assert BitOr(BitAnd(Shr(s, 16), 0x3F), 0x80) == 0x80 + s / 0x1_0000 % 0x40 by {
      ShrMask(s, 16, 6);
      PowersOfTwo();
      OrHighBits(s / 0x1_0000 % 0x40, 2, 6);
    }
    assert BitAnd(Shr(s, 8), 0xFF) == s / 0x100 % 0x100 by {
      ShrMask(s, 8, 8);
      PowersOfTwo();
    }
    assert BitAnd(s, 0xFF) == s % 0x100 by {
      AndLowMask(s, 8);
      PowersOfTwo();
    }
  }

  /** The corrected layout's fields: serial bits 29-26, 25-18, 17-12, 11-4 and 3-0. */
  lemma ContiguousFields(s: nat)
    requires s < NanosPerSecond
    ensures SerialFields(Contiguous, s) ==
      [s / 0x400_0000, s / 0x4_0000 % 0x100, 0x80 + s / 0x1000 % 0x40, s / 0x10 % 0x100, s % 0x10 * 0x10]
  {
    var f := SerialFields(Contiguous, s);
    assert f == [BitAnd(Shr(s, 26), 0x0F), BitAnd(Shr(s, 18), 0xFF), BitOr(BitAnd(Shr(s, 12), 0x3F), 0x80),
                 BitAnd(Shr(s, 4), 0xFF), Shl(BitAnd(s, 0x0F), 4)];
    assert BitAnd(Shr(s, 26), 0x0F) == s / 0x400_0000 by {
      ShrMask(s, 26, 4);
      PowersOfTwo();
      PowersOfTwoHigh();
      ModSmall(s / 0x400_0000, 0x10);
    }
    assert BitAnd(Shr(s, 18), 0xFF) == s / 0x4_0000 % 0x100 by {
      ShrMask(s, 18, 8);
      PowersOfTwo();
    }
    assert BitOr(BitAnd(Shr(s, 12), 0x3F), 0x80) == 0x80 + s / 0x1000 % 0x40 by {
      ShrMask(s, 12, 6);
      PowersOfTwo();
      OrHighBits(s / 0x1000 % 0x40, 2, 6);
    }
    assert BitAnd(Shr(s, 4), 0xFF) == s / 0x10 % 0x100 by {
      ShrMask(s, 4, 8);
      PowersOfTwo();
    }
    assert Shl(BitAnd(s, 0x0F), 4) == s % 0x10 * 0x10 by {
      assert Pow(2, 4) == 0x10;
      AndLowMask(s, 4);
      ShlIsMul(s % 0x10, 4);
    }
  }

  /** The number octets 6-10 contribute besides their fixed version and variant bits.
      `AsWritten` keeps serial bits 24-29 and 0-21 and drops bits 22-23;
      `Contiguous` keeps all thirty, in order. */
  function SerialKey(layout: Layout, s: nat): (k: nat)
    ensures s < NanosPerSecond ==> k < 0x10_0000_0000
  {
    match layout
    case AsWritten => 0x100_0000 * (s / 0x100_0000) + s % 0x40_0000
    case Contiguous => 0x100_0000 * (s / 0x4_0000) + 0x10 * (s % 0x4_0000)
  }

  /** Octets 6-10 read as one integer: the version nibble 7 at bits 36-39, the variant
      bit at bit 23, and the serial key. */
  lemma TailValue(layout: Layout, s: nat, rand5: seq<byte>)
    requires s < NanosPerSecond && |rand5| == 5
    ensures FromBE(Tail(layout, s, rand5)[..5]) == 0x70_0080_0000 + SerialKey(layout, s)
  {
    match layout
    case AsWritten => AsWrittenTail(s, rand5);
    case Contiguous => ContiguousTail(s, rand5);
  }

  /** `TailValue` for core.py's layout. */
  lemma AsWrittenTail(s: nat, rand5: seq<byte>)
    requires s < NanosPerSecond && |rand5| == 5
    ensures FromBE(Tail(AsWritten, s, rand5)[..5]) == 0x70_0080_0000 + SerialKey(AsWritten, s)
  {
    var t := Tail(AsWritten, s, rand5);
    var a, c, d, e := s / 0x100_0000, s / 0x1_0000 % 0x40, s / 0x100 % 0x100, s % 0x100;
    assert t[..5] == [0x70, a, 0x80 + c, d, e] by {
      AsWrittenFields(s);
    }
    FromBE5(t[..5]);
    AsWrittenKey(s);
  }

  /** `TailValue` for the contiguous layout. */
  lemma ContiguousTail(s: nat, rand5: seq<byte>)
    requires s < NanosPerSecond && |rand5| == 5
    ensures FromBE(Tail(Contiguous, s, rand5)[..5]) == 0x70_0080_0000 + SerialKey(Contiguous, s)
  {
    var t := Tail(Contiguous, s, rand5);
    var a, b, c, d, e := s / 0x400_0000, s / 0x4_0000 % 0x100, s / 0x1000 % 0x40, s / 0x10 % 0x100, s % 0x10;
    assert t[..5] == [0x70 + a, b, 0x80 + c, d, e * 0x10] by {
      ContiguousFields(s);
      PowersOfTwo();
      AndLowMask(a, 4);
      ModSmall(a, 0x10);
      OrHighBits(a, 7, 4);
    }
    FromBE5(t[..5]);
    ContiguousKey(s);
  }

  /** The bits of the as-written fields add up to the serial key. */
  lemma AsWrittenKey(s: nat)
    ensures s / 0x1_0000 % 0x40 * 0x1_0000 + s / 0x100 % 0x100 * 0x100 + s % 0x100 == s % 0x40_0000
  {
    DivDiv(s, 0x100, 0x100);
    DivDiv(s, 0x1_0000, 0x40);
  }

  /** Octets 6 and 7 of a UUID in core.py's layout: the version byte is exactly `0x70`,
      because the `serial >> 32` field is always empty, and octet 7 holds serial bits
      24-29, so it never exceeds `0x3B` (999,999,999 >> 24 == 59). */
  lemma AsWrittenOctets(m: int, nowNs: int, rand5: seq<byte>)
    requires |rand5| == 5 && 0 <= m < TimestampLimit
    ensures Encode(AsWritten, Millis(m), nowNs, rand5).Success?
    ensures Encode(AsWritten, Millis(m), nowNs, rand5).value[6] == 0x70
    ensures Encode(AsWritten, Millis(m), nowNs, rand5).value[7] == Serial(nowNs) / 0x100_0000 <= 0x3B
  {
    var s := Serial(nowNs);
    var u := Encode(AsWritten, Millis(m), nowNs, rand5).value;
    AsWrittenFields(s);
    assert u[6..][..2] == [0x70, s / 0x100_0000];
  }

  /** The bits of the contiguous fields add up to the serial key. */
  lemma ContiguousKey(s: nat)
    ensures s / 0x4_0000 == s / 0x400_0000 * 0x100 + s / 0x4_0000 % 0x100
    ensures s % 0x4_0000 == s / 0x1000 % 0x40 * 0x1000 + s / 0x10 % 0x100 * 0x10 + s % 0x10
  {
    DivDiv(s, 0x4_0000, 0x100);
    DivMod(s / 0x4_0000, 0x100);
    DivDiv(s, 0x10, 0x100);
    DivDiv(s, 0x1000, 0x40);
  }

  /** The first eleven octets of an encoded UUID read as one integer: the millisecond count
      above the 40 bits of octets 6-10. */
  lemma EncodedPrefix(layout: Layout, m: int, nowNs: int, rand5: seq<byte>)
    requires |rand5| == 5 && 0 <= m < TimestampLimit
    ensures Encode(layout, Millis(m), nowNs, rand5).Success?
    ensures FromBE(Encode(layout, Millis(m), nowNs, rand5).value[..11]) ==
      m * 0x100_0000_0000 + (0x70_0080_0000 + SerialKey(layout, Serial(nowNs)))
  {
    var u := Encode(layout, Millis(m), nowNs, rand5).value;
    var tail := Tail(layout, Serial(nowNs), rand5);
    assert u[..11] == u[..6] + tail[..5];
    FromBEConcat(u[..6], tail[..5]);
    assert Pow(256, 5) == 0x100_0000_0000 by {
      PowersOf256();
    }
    TailValue(layout, Serial(nowNs), rand5);
  }

  /** Python's `<` on the bytes of two encoded UUIDs is the lexicographic order of
      (millisecond count, serial key, entropy bytes). */
  lemma EncodeOrder(layout: Layout, m1: int, ns1: int, r1: seq<byte>, m2: int, ns2: int, r2: seq<byte>)
    requires |r1| == 5 && |r2| == 5
    requires 0 <= m1 < TimestampLimit && 0 <= m2 < TimestampLimit
    ensures Encode(layout, Millis(m1), ns1, r1).Success? && Encode(layout, Millis(m2), ns2, r2).Success?
    ensures
      var k1, k2 := SerialKey(layout, Serial(ns1)), SerialKey(layout, Serial(ns2));
      BytesLess(Encode(layout, Millis(m1), ns1, r1).value, Encode(layout, Millis(m2), ns2, r2).value)
      <==> m1 < m2 || (m1 == m2 && (k1 < k2 || (k1 == k2 && BytesLess(r1, r2))))
  {
    var u1, u2 := Encode(layout, Millis(m1), ns1, r1).value, Encode(layout, Millis(m2), ns2, r2).value;
    var k1, k2 := SerialKey(layout, Serial(ns1)), SerialKey(layout, Serial(ns2));
    EncodedPrefix(layout, m1, ns1, r1);
    EncodedPrefix(layout, m2, ns2, r2);
    assert u1 == u1[..11] + r1 && u2 == u2[..11] + r2;
    LexConcat(u1[..11], r1, u2[..11], r2, ByteLt);
    LexIffValue(u1[..11], u2[..11]);
    PlaceValue(m1, 0x70_0080_0000 + k1, m2, 0x70_0080_0000 + k2, 0x100_0000_0000);
  }

  /** Two encoded UUIDs are equal exactly when their millisecond counts, serial keys and
      entropy bytes are. */
  lemma EncodeInjective(layout: Layout, m1: int, ns1: int, r1: seq<byte>, m2: int, ns2: int, r2: seq<byte>)
    requires |r1| == 5 && |r2| == 5
    requires 0 <= m1 < TimestampLimit && 0 <= m2 < TimestampLimit
    ensures Encode(layout, Millis(m1), ns1, r1).Success? && Encode(layout, Millis(m2), ns2, r2).Success?
    ensures
      Encode(layout, Millis(m1), ns1, r1).value == Encode(layout, Millis(m2), ns2, r2).value
      <==> m1 == m2 && SerialKey(layout, Serial(ns1)) == SerialKey(layout, Serial(ns2)) && r1 == r2
  {
    var u1, u2 := Encode(layout, Millis(m1), ns1, r1).value, Encode(layout, Millis(m2), ns2, r2).value;
    var k1, k2 := SerialKey(layout, Serial(ns1)), SerialKey(layout, Serial(ns2));
    EncodedPrefix(layout, m1, ns1, r1);
    EncodedPrefix(layout, m2, ns2, r2);
    assert u1 == u1[..11] + r1 && u2 == u2[..11] + r2;
    if u1 == u2 {
      assert u1[..11] == u2[..11];
    }
    LexIffValue(u1[..11], u2[..11]);
    PlaceValue(m1, 0x70_0080_0000 + k1, m2, 0x70_0080_0000 + k2, 0x100_0000_0000);
  }

  /** The contiguous layout's key is strictly monotone: it orders and separates serials
      exactly as the serials themselves. */
  lemma ContiguousKeyOrder(s1: nat, s2: nat)
    ensures s1 < s2 <==> SerialKey(Contiguous, s1) < SerialKey(Contiguous, s2)
    ensures s1 == s2 <==> SerialKey(Contiguous, s1) == SerialKey(Contiguous, s2)
  {
    DivMod(s1, 0x4_0000);
    DivMod(s2, 0x4_0000);
    PlaceValue(s1 / 0x4_0000, s1 % 0x4_0000, s2 / 0x4_0000, s2 % 0x4_0000, 0x4_0000);
    PlaceValue(s1 / 0x4_0000, 0x10 * (s1 % 0x4_0000), s2 / 0x4_0000, 0x10 * (s2 % 0x4_0000), 0x100_0000);
  }

  /** Bits 22 and 23 of a serial: the two bits core.py's layout leaves out. */
  function DroppedBits(s: nat): (d: nat)
    ensures d < 4
  {
    s / 0x40_0000 % 4
  }

  /** A serial is its key under core.py's layout plus its two dropped bits in place. */
  lemma AsWrittenSplit(s: nat)
    ensures s == SerialKey(AsWritten, s) + DroppedBits(s) * 0x40_0000
  {
    DivDiv(s, 0x40_0000, 4);
  }

  /** Under core.py's layout, serials whose bits 22-23 agree are ordered and separated
      by their keys exactly as by themselves. */
  lemma AsWrittenKeyOrder(s1: nat, s2: nat)
    requires DroppedBits(s1) == DroppedBits(s2)
    ensures s1 < s2 <==> SerialKey(AsWritten, s1) < SerialKey(AsWritten, s2)
    ensures s1 == s2 <==> SerialKey(AsWritten, s1) == SerialKey(AsWritten, s2)
  {
    AsWrittenSplit(s1);
    AsWrittenSplit(s2);
  }

  /** Serials less than 2^22 apart keep distinct keys under core.py's layout. */
  lemma AsWrittenKeyClose(s1: nat, s2: nat)
    requires s1 < s2 < s1 + 0x40_0000
    ensures SerialKey(AsWritten, s1) != SerialKey(AsWritten, s2)
  {
    AsWrittenSplit(s1);
    AsWrittenSplit(s2);
  }

  /** Clock readings whose serials are less than 2^22 ns apart never give the same UUID under
      core.py's layout, whatever the entropy bytes. Calls without an argument take their
      millisecond from the same reading (core.py lines 36-42); in exact arithmetic two of them
      in one millisecond are less than 10^6 ns apart within one second, so the collision below
      needs an explicit argument. */
  lemma AsWrittenCloseSerials(m: int, ns1: int, r1: seq<byte>, ns2: int, r2: seq<byte>)
    requires |r1| == 5 && |r2| == 5 && 0 <= m < TimestampLimit
    requires Serial(ns1) < Serial(ns2) < Serial(ns1) + 0x40_0000
    ensures Encode(AsWritten, Millis(m), ns1, r1).Success? && Encode(AsWritten, Millis(m), ns2, r2).Success?
    ensures Encode(AsWritten, Millis(m), ns1, r1).value != Encode(AsWritten, Millis(m), ns2, r2).value
  {
    AsWrittenKeyClose(Serial(ns1), Serial(ns2));
    EncodeInjective(AsWritten, m, ns1, r1, m, ns2, r2);
  }

  /** Serials that differ in bits 24-29 keep distinct keys under core.py's layout. */
  lemma AsWrittenKeyHigh(s1: nat, s2: nat)
    requires s1 / 0x100_0000 != s2 / 0x100_0000
    ensures SerialKey(AsWritten, s1) != SerialKey(AsWritten, s2)
  {
    PlaceValue(s1 / 0x100_0000, s1 % 0x40_0000, s2 / 0x100_0000, s2 % 0x40_0000, 0x100_0000);
  }

  /** Clock readings whose serials differ in bits 24-29 never give the same UUID under
      core.py's layout, whatever the entropy bytes: readings far apart in one second, or on
      either side of a second boundary, are told apart by octet 7. */
  lemma AsWrittenSerialsApart(m: int, ns1: int, r1: seq<byte>, ns2: int, r2: seq<byte>)
    requires |r1| == 5 && |r2| == 5 && 0 <= m < TimestampLimit
    requires Serial(ns1) / 0x100_0000 != Serial(ns2) / 0x100_0000
    ensures Encode(AsWritten, Millis(m), ns1, r1).Success? && Encode(AsWritten, Millis(m), ns2, r2).Success?
    ensures Encode(AsWritten, Millis(m), ns1, r1).value != Encode(AsWritten, Millis(m), ns2, r2).value
  {
    AsWrittenKeyHigh(Serial(ns1), Serial(ns2));
    EncodeInjective(AsWritten, m, ns1, r1, m, ns2, r2);
  }

  /** The serial restarts at every second, so two readings 200 ns apart on either side of a
      second boundary that share one millisecond count sort backwards under either layout.
      Exact arithmetic gives them different millisecond counts; the float division and
      multiplication of core.py lines 39 and 42 can round both to the same one. */
  lemma SecondBoundaryInversion(layout: Layout, m: int, r1: seq<byte>, r2: seq<byte>)
    requires |r1| == 5 && |r2| == 5 && 0 <= m < TimestampLimit
    ensures Serial(1_746_057_599_999_999_900) == 999_999_900 && Serial(1_746_057_600_000_000_100) == 100
    ensures Encode(layout, Millis(m), 1_746_057_599_999_999_900, r1).Success?
    ensures Encode(layout, Millis(m), 1_746_057_600_000_000_100, r2).Success?
    ensures BytesLess(Encode(layout, Millis(m), 1_746_057_600_000_000_100, r2).value,
                      Encode(layout, Millis(m), 1_746_057_599_999_999_900, r1).value)
  {
    assert SerialKey(layout, 100) < SerialKey(layout, 999_999_900);
    EncodeOrder(layout, m, 1_746_057_600_000_000_100, r2, m, 1_746_057_599_999_999_900, r1);
  }

  /** The key of core.py's layout forgets bits 22-23: serials that differ only there share a key. */
  lemma {:induction false} AsWrittenKeyForgets(s: nat, d: nat)
    requires d < 4 && DroppedBits(s) == 0
    ensures SerialKey(AsWritten, s + d * 0x40_0000) == SerialKey(AsWritten, s)
    ensures DroppedBits(s + d * 0x40_0000) == d
  {
    var t := s + d * 0x40_0000;
    AsWrittenSplit(s);
    DivMod(s, 0x100_0000);
    DivMod(s, 0x40_0000);
    DivModUnique(t, 0x100_0000, s / 0x100_0000, s % 0x40_0000 + d * 0x40_0000);
    DivModUnique(t, 0x40_0000, s / 0x40_0000 + d, s % 0x40_0000);
    DivModUnique(s / 0x40_0000 + d, 4, s / 0x40_0000 / 4, d);
  }

  /** A later millisecond gives a greater UUID whatever the clocks' nanoseconds and entropy. */
  lemma TimestampOrder(layout: Layout, m1: int, ns1: int, r1: seq<byte>, m2: int, ns2: int, r2: seq<byte>)
    requires |r1| == 5 && |r2| == 5
    requires 0 <= m1 < m2 < TimestampLimit
    ensures Encode(layout, Millis(m1), ns1, r1).Success? && Encode(layout, Millis(m2), ns2, r2).Success?
    ensures BytesLess(Encode(layout, Millis(m1), ns1, r1).value, Encode(layout, Millis(m2), ns2, r2).value)
  {
    EncodeOrder(layout, m1, ns1, r1, m2, ns2, r2);
  }

  /** Within one millisecond, the corrected layout orders UUIDs by serial, then by entropy. */
  lemma ContiguousSameMillisecond(m: int, ns1: int, r1: seq<byte>, ns2: int, r2: seq<byte>)
    requires |r1| == 5 && |r2| == 5 && 0 <= m < TimestampLimit
    ensures Encode(Contiguous, Millis(m), ns1, r1).Success? && Encode(Contiguous, Millis(m), ns2, r2).Success?
    ensures
      BytesLess(Encode(Contiguous, Millis(m), ns1, r1).value, Encode(Contiguous, Millis(m), ns2, r2).value)
      <==> Serial(ns1) < Serial(ns2) || (Serial(ns1) == Serial(ns2) && BytesLess(r1, r2))
  {
    EncodeOrder(Contiguous, m, ns1, r1, m, ns2, r2);
    ContiguousKeyOrder(Serial(ns1), Serial(ns2));
  }

  /** The corrected layout loses nothing: equal UUIDs come from equal milliseconds,
      serials and entropy. */
  lemma ContiguousInjective(m1: int, ns1: int, r1: seq<byte>, m2: int, ns2: int, r2: seq<byte>)
    requires |r1| == 5 && |r2| == 5
    requires 0 <= m1 < TimestampLimit && 0 <= m2 < TimestampLimit
    ensures Encode(Contiguous, Millis(m1), ns1, r1).Success? && Encode(Contiguous, Millis(m2), ns2, r2).Success?
    ensures
      Encode(Contiguous, Millis(m1), ns1, r1).value == Encode(Contiguous, Millis(m2), ns2, r2).value
      <==> m1 == m2 && Serial(ns1) == Serial(ns2) && r1 == r2
  {
    EncodeInjective(Contiguous, m1, ns1, r1, m2, ns2, r2);
    ContiguousKeyOrder(Serial(ns1), Serial(ns2));
  }

  /** Within one millisecond, core.py's layout orders UUIDs by serial only when the two
      serials agree in bits 22-23. */
  lemma AsWrittenSameMillisecond(m: int, ns1: int, r1: seq<byte>, ns2: int, r2: seq<byte>)
    requires |r1| == 5 && |r2| == 5 && 0 <= m < TimestampLimit
    requires DroppedBits(Serial(ns1)) == DroppedBits(Serial(ns2))
    ensures Encode(AsWritten, Millis(m), ns1, r1).Success? && Encode(AsWritten, Millis(m), ns2, r2).Success?
    ensures
      BytesLess(Encode(AsWritten, Millis(m), ns1, r1).value, Encode(AsWritten, Millis(m), ns2, r2).value)
      <==> Serial(ns1) < Serial(ns2) || (Serial(ns1) == Serial(ns2) && BytesLess(r1, r2))
  {
    EncodeOrder(AsWritten, m, ns1, r1, m, ns2, r2);
    AsWrittenKeyOrder(Serial(ns1), Serial(ns2));
  }

  /** core.py's layout puts a later serial first: the serial 2^22 - 1 encodes above 2^22
      in the same millisecond, whatever the entropy bytes. */
  lemma AsWrittenOutOfOrder(m: int, r1: seq<byte>, r2: seq<byte>)
    requires |r1| == 5 && |r2| == 5 && 0 <= m < TimestampLimit
    ensures Serial(0x3F_FFFF) < Serial(0x40_0000)
    ensures Encode(AsWritten, Millis(m), 0x3F_FFFF, r1).Success? && Encode(AsWritten, Millis(m), 0x40_0000, r2).Success?
    ensures BytesLess(Encode(AsWritten, Millis(m), 0x40_0000, r2).value, Encode(AsWritten, Millis(m), 0x3F_FFFF, r1).value)
  {
    assert SerialKey(AsWritten, 0x40_0000) == 0 && SerialKey(AsWritten, 0x3F_FFFF) == 0x3F_FFFF;
    EncodeOrder(AsWritten, m, 0x40_0000, r2, m, 0x3F_FFFF, r1);
  }

  /** core.py's layout maps two serials 2^22 apart to one UUID: with the same entropy
      bytes, the clock readings 0 and 2^22 ns under one explicit millisecond argument
      collide. */
  lemma AsWrittenCollision(m: int, r: seq<byte>)
    requires |r| == 5 && 0 <= m < TimestampLimit
    ensures Serial(0) != Serial(0x40_0000)
    ensures Encode(AsWritten, Millis(m), 0, r) == Encode(AsWritten, Millis(m), 0x40_0000, r)
  {
    assert SerialKey(AsWritten, 0x40_0000) == 0 && SerialKey(AsWritten, 0) == 0;
    EncodeInjective(AsWritten, m, 0, r, m, 0x40_0000, r);
  }

  /** Bytes that are all zero read as the integer zero. */
  lemma {:induction false} ZerosValue(s: seq<byte>)
    requires forall i | 0 <= i < |s| :: s[i] == 0
    ensures FromBE(s) == 0
    decreases |s|
  {
    if |s| > 0 {
      ZerosValue(s[..|s| - 1]);
    }
  }

  /** The nil UUID sorts below every version-7 UUID. */
  lemma NilLeast(u: Uuid)
    requires HasV7Tags(u)
    ensures BytesLess(Nil, u)
  {
    ZerosValue(Nil);
    OctetValue(u, 6);
    LexIffValue(Nil, u);
  }

  /** `uuid7(n1) < uuid7(n2)` for integer arguments `0 <= n1 < n2`, as the timestamp
      monotonicity test in tests/test_core.py expects of `uuid7(i)` for rising `i`: the sentinel for `0` sorts first, and positive
      arguments order by their millisecond counts `n * 1000`. */
  lemma IntArgumentOrder(layout: Layout, n1: int, ns1: int, r1: seq<byte>, n2: int, ns2: int, r2: seq<byte>)
    requires |r1| == 5 && |r2| == 5
    requires 0 <= n1 < n2 && n2 * 1000 < TimestampLimit
    ensures Encode(layout, IntArgument(n1), ns1, r1).Success? && Encode(layout, IntArgument(n2), ns2, r2).Success?
    ensures BytesLess(Encode(layout, IntArgument(n1), ns1, r1).value, Encode(layout, IntArgument(n2), ns2, r2).value)
  {
    if n1 == 0 {
      NilLeast(Encode(layout, IntArgument(n2), ns2, r2).value);
    } else {
      TimestampOrder(layout, n1 * 1000, ns1, r1, n2 * 1000, ns2, r2);
    }
  }
}

=== FILE: text.dfy ===
/** `str(UUID)`: the 32 lower-case hexadecimal digits of `UUID.int`, grouped 8-4-4-4-12
    by dashes (RFC 9562 section 4), and what comparing those strings says about the UUIDs. */
module CanonicalText {
  import opened Bits
  import opened Bytes
  import opened Order
  import opened Uuid7
  import opened Ordering

  /** The lower-case hexadecimal digit Python's `'%x'` writes for `d < 16`. */
  function HexDigit(d: nat): (c: char)
    requires d < 16
    ensures '0' <= c <= 'f'
  {
    if d < 10 then (48 + d) as char else (87 + d) as char
  }

  /** The low `count` hexadecimal digits of `n`, most significant first, zero-padded:
      `'%0{count}x' % n` when `n < 16^count`. */
  function Hex(n: nat, count: nat): (h: seq<char>)
    ensures |h| == count
  {
    if count == 0 then [] else Hex(n / 16, count - 1) + [HexDigit(n % 16)]
  }

  /** The dashes of the 8-4-4-4-12 grouping, put into 32 digits. */
  function Dashed(h: seq<char>): (t: seq<char>)
    requires |h| == 32
    ensures |t| == 36
  {
    h[..8] + "-" + h[8..12] + "-" + h[12..16] + "-" + h[16..20] + "-" + h[20..]
  }

  /** `str(u)`: dashes at positions 8, 13, 18 and 23, and with them removed, `u.hex`, the
      32 digits of `UUID.int`. */
  function Canonical(u: Uuid): (t: seq<char>)
    ensures |t| == 36
    ensures t[8] == t[13] == t[18] == t[23] == '-'
    ensures t[..8] + t[9..13] + t[14..18] + t[19..23] + t[24..] == Hex(FromBE(u), 32)
  {
    DashedDigits(Hex(FromBE(u), 32));
    Dashed(Hex(FromBE(u), 32))
  }

  /** The dashes of the 8-4-4-4-12 form sit at positions 8, 13, 18 and 23, and removing
      them gives the digits back. */
  lemma DashedDigits(h: seq<char>)
    requires |h| == 32
    ensures var t := Dashed(h); t[8] == t[13] == t[18] == t[23] == '-'
    ensures var t := Dashed(h); t[..8] + t[9..13] + t[14..18] + t[19..23] + t[24..] == h
  {
    var t := Dashed(h);
    assert t[..8] == h[..8] && t[9..13] == h[8..12] && t[14..18] == h[12..16];
    assert t[19..23] == h[16..20] && t[24..] == h[20..];
    assert h == h[..8] + h[8..12] + h[12..16] + h[16..20] + h[20..];
  }

  /** Character order; Python compares `str` values element by element with it. */
  predicate CharLt(x: char, y: char) {
    x < y
  }

  /** Python's `a < b` on `str`. */
  predicate TextLess(a: seq<char>, b: seq<char>) {
    Lex(a, b, CharLt)
  }

  /** Python's `<` on `str` is a strict total order, so `sorted` on canonical strings is
      determined by it. */
  lemma TextLessTotal(a: seq<char>, b: seq<char>)
    ensures TextLess(a, b) || a == b || TextLess(b, a)
    ensures !(TextLess(a, b) && TextLess(b, a))
    ensures !TextLess(a, a)
  {
    LexTotal(a, b, CharLt);
    LexTotal(a, a, CharLt);
  }

  /** The digit table is increasing, so digits compare as the values they stand for. */
  lemma DigitOrder(d1: nat, d2: nat)
    requires d1 < 16 && d2 < 16
    ensures d1 < d2 <==> HexDigit(d1) < HexDigit(d2)
    ensures d1 == d2 <==> HexDigit(d1) == HexDigit(d2)
  {
  }

  /** The dashes sit at the same places in every canonical string, so they never decide a
      comparison: dashed strings compare, and are equal, exactly as their digits are. */
  lemma DashedOrder(h1: seq<char>, h2: seq<char>)
    requires |h1| == 32 && |h2| == 32
    ensures TextLess(Dashed(h1), Dashed(h2)) <==> TextLess(h1, h2)
    ensures Dashed(h1) == Dashed(h2) <==> h1 == h2
  {
    var a1, b1, c1, d1, e1 := h1[..8], h1[8..12], h1[12..16], h1[16..20], h1[20..];
    var a2, b2, c2, d2, e2 := h2[..8], h2[8..12], h2[12..16], h2[16..20], h2[20..];
    assert Dashed(h1) == a1 + ("-" + (b1 + ("-" + (c1 + ("-" + (d1 + ("-" + e1)))))));
    assert Dashed(h2) == a2 + ("-" + (b2 + ("-" + (c2 + ("-" + (d2 + ("-" + e2)))))));
    assert h1 == a1 + (b1 + (c1 + (d1 + e1)));
    assert h2 == a2 + (b2 + (c2 + (d2 + e2)));
    LexCons('-', e1, e2, CharLt);
    LexCompose(d1, "-" + e1, e1, d2, "-" + e2, e2, CharLt);
    LexCons('-', d1 + ("-" + e1), d2 + ("-" + e2), CharLt);
    LexCompose(c1, "-" + (d1 + ("-" + e1)), d1 + e1, c2, "-" + (d2 + ("-" + e2)), d2 + e2, CharLt);
    var t1, t2 := c1 + ("-" + (d1 + ("-" + e1))), c2 + ("-" + (d2 + ("-" + e2)));
    LexCons('-', t1, t2, CharLt);
    LexCompose(b1, "-" + t1, c1 + (d1 + e1), b2, "-" + t2, c2 + (d2 + e2), CharLt);
    var v1, v2 := b1 + ("-" + t1), b2 + ("-" + t2);
    LexCons('-', v1, v2, CharLt);
    LexCompose(a1, "-" + v1, b1 + (c1 + (d1 + e1)), a2, "-" + v2, b2 + (c2 + (d2 + e2)), CharLt);
  }

  /** Zero-padded hexadecimal strings of one width compare, and are equal, as their
      numbers do. */
  lemma {:induction false} HexOrder(n1: nat, n2: nat, count: nat)
    requires n1 < Pow(16, count) && n2 < Pow(16, count)
    ensures TextLess(Hex(n1, count), Hex(n2, count)) <==> n1 < n2
    ensures Hex(n1, count) == Hex(n2, count) <==> n1 == n2
  {
    if count > 0 {
      var p := Pow(16, count - 1);
      DivMod(n1, 16);
      DivMod(n2, 16);
      assert n1 / 16 < p && n2 / 16 < p;
      HexOrder(n1 / 16, n2 / 16, count - 1);
      LexSnoc(Hex(n1 / 16, count - 1), HexDigit(n1 % 16), Hex(n2 / 16, count - 1), HexDigit(n2 % 16), CharLt);
      DigitOrder(n1 % 16, n2 % 16);
      PlaceValue(n1 / 16, n1 % 16, n2 / 16, n2 % 16, 16);
      var h1, h2 := Hex(n1, count), Hex(n2, count);
      if h1 == h2 {
        assert h1[..count - 1] == h2[..count - 1] && h1[count - 1] == h2[count - 1];
      }
    }
  }

  /** Sixteen bytes are thirty-two hexadecimal digits. */
  lemma {:induction false} HexWidth(k: nat)
    ensures Pow(256, k) == Pow(16, 2 * k)
  {
    if k > 0 {
      HexWidth(k - 1);
      assert Pow(16, 2 * k) == 16 * (16 * Pow(16, 2 * (k - 1)));
    }
  }

  /** Canonical strings sort exactly as the UUIDs' bytes do, and name them one-to-one. */
  lemma CanonicalOrder(u1: Uuid, u2: Uuid)
    ensures TextLess(Canonical(u1), Canonical(u2)) <==> BytesLess(u1, u2)
    ensures Canonical(u1) == Canonical(u2) <==> u1 == u2
  {
    HexWidth(16);
    HexOrder(FromBE(u1), FromBE(u2), 32);
    DashedOrder(Hex(FromBE(u1), 32), Hex(FromBE(u2), 32));
    LexIffValue(u1, u2);
  }

  /** The leading `k` digits of a `count`-digit string are the number shifted down by
      the remaining digits. */
  lemma {:induction false} HexPrefix(n: nat, count: nat, k: nat)
    requires k <= count
    ensures Hex(n, count)[..k] == Hex(n / Pow(16, count - k), k)
    decreases count - k
  {
    if k == count {
      DivModUnique(n, 1, n, 0);
    } else {
      var p := Pow(16, count - 1 - k);
      HexPrefix(n / 16, count - 1, k);
      DivDiv(n, 16, p);
      assert Hex(n, count)[..k] == Hex(n / 16, count - 1)[..k];
    }
  }

  /** The first fifteen characters of a canonical string: eight digits, a dash, four
      digits, a dash, and the thirteenth digit, which is the version nibble. */
  lemma DashedPrefix(h: seq<char>)
    requires |h| == 32
    ensures Dashed(h)[..15] == h[..8] + "-" + h[8..12] + "-" + h[12..13]
    ensures Dashed(h)[..5] == h[..5]
  {
  }

  /** The first fifteen characters of `str(uuid7(...))` are the millisecond count as twelve
      hexadecimal digits, grouped 8-4, then the version digit `7`. */
  lemma TimestampText(layout: Layout, m: int, nowNs: int, rand5: seq<byte>)
    requires |rand5| == 5 && 0 <= m < TimestampLimit
    ensures Encode(layout, Millis(m), nowNs, rand5).Success?
    ensures
      var t := Hex(m, 12);
      Canonical(Encode(layout, Millis(m), nowNs, rand5).value)[..15] == t[..8] + "-" + t[8..] + "-7"
  {
    VersionText(Encode(layout, Millis(m), nowNs, rand5).value);
  }

  /** For a UUID whose version nibble is 7, the first fifteen characters of its canonical
      string are the first six bytes in hexadecimal, grouped 8-4, then `7`. */
  lemma VersionText(u: Uuid)
    requires u[6] / 16 == 7
    ensures
      var t := Hex(FromBE(u[..6]), 12);
      Canonical(u)[..15] == t[..8] + "-" + t[8..] + "-7"
  {
    var t := Hex(FromBE(u[..6]), 12);
    HexHead(u);
    DashedHead(Hex(FromBE(u), 32), t, '7');
  }

  /** The first thirteen digits of a UUID in hexadecimal: its first six bytes, then the
      high nibble of octet 6. */
  lemma HexHead(u: Uuid)
    ensures Hex(FromBE(u), 32)[..13] == Hex(FromBE(u[..6]), 12) + [HexDigit(u[6] / 16)]
  {
    var x := FromBE(u) / Pow(16, 19);
    LeadingNibbles(u);
    DivModUnique(x, 16, FromBE(u[..6]), u[6] / 16);
    HexSplit(FromBE(u), FromBE(u[..6]), u[6] / 16);
  }

  /** The thirteenth digit of 32 splits off the twelve above it. */
  lemma HexSplit(n: nat, m: nat, d: nat)
    requires d < 16 && n / Pow(16, 19) / 16 == m && n / Pow(16, 19) % 16 == d
    ensures Hex(n, 32)[..13] == Hex(m, 12) + [HexDigit(d)]
  {
    var x := n / Pow(16, 19);
    HexPrefix(n, 32, 13);
    HexLast(x, 13);
  }

  /** Where the first thirteen digits land in the dashed form. */
  lemma DashedHead(h: seq<char>, t: seq<char>, c: char)
    requires |h| == 32 && |t| == 12 && h[..13] == t + [c]
    ensures Dashed(h)[..15] == t[..8] + "-" + t[8..] + "-" + [c]
  {
    DashedPrefix(h);
    assert h[..8] == h[..13][..8] && h[8..12] == h[..13][8..12] && h[12..13] == h[..13][12..13];
  }

  /** The top thirteen hexadecimal digits of a UUID are its timestamp and version nibble. */
  lemma LeadingNibbles(u: Uuid)
    ensures FromBE(u) / Pow(16, 19) == FromBE(u[..6]) * 16 + u[6] / 16
  {
    var n := FromBE(u);
    OctetValue(u, 6);
    HexWidth(9);
    assert Pow(16, 19) == Pow(16, 18) * 16;
    DivDiv(n, Pow(256, 9), 16);
  }

  /** One step of `Hex`: the last digit, after the digits of the number shifted down by one. */
  lemma HexLast(x: nat, count: nat)
    requires count > 0
    ensures Hex(x, count) == Hex(x / 16, count - 1) + [HexDigit(x % 16)]
  {
  }

  /** Zero prints as zeros only. */
  lemma {:induction false} HexZeros(count: nat)
    ensures Hex(0, count) == seq(count, _ => '0')
  {
    if count > 0 {
      HexZeros(count - 1);
    }
  }

  /** `uuid7` at one millisecond past the epoch prints as `00000000-0001-7…`, as the date
      test in tests/test_core.py expects of `datetime_to_uuid7('1970-01-01 00:00:00.001+00')`.
      The count is a parameter pinned by `requires m == 1` rather than a literal `Millis(1)`:
      with a literal argument the verifier unfolds the recursive `Hex`, `FromBE` and `BitAnd`
      on constants and runs out of resource. The helpers below follow the same pattern. */
  lemma OneMillisecondText(layout: Layout, m: int, nowNs: int, rand5: seq<byte>)
    requires |rand5| == 5 && m == 1
    ensures Encode(layout, Millis(m), nowNs, rand5).Success?
    ensures Canonical(Encode(layout, Millis(m), nowNs, rand5).value)[..15] == "00000000-0001-7"
  {
    TimestampText(layout, m, nowNs, rand5);
    HexOne(m);
  }

  /** `'%012x' % 1`, grouped as in the canonical string. */
  lemma HexOne(x: nat)
    requires x == 1
    ensures Hex(x, 12)[..8] + "-" + Hex(x, 12)[8..] + "-7" == "00000000-0001-7"
  {
    var t := Hex(x, 12);
    HexOneDigits(x);
    assert t[..8] == "00000000" && t[8..] == "0001";
  }

  /** `'%012x' % 1`. */
  lemma HexOneDigits(x: nat)
    requires x == 1
    ensures Hex(x, 12) == "000000000001"
  {
    assert Hex(x, 12) == Hex(0, 11) + ['1'] by {
      assert HexDigit(x % 16) == '1' by {
        assert x % 16 == 1;
      }
      assert x / 16 == 0;
      HexLast(x, 12);
    }
    HexZeros(11);
  }

  /** One step of `Hex` whose digit is known. */
  lemma HexStep(x: nat, count: nat, c: char)
    requires count > 0 && HexDigit(x % 16) == c
    ensures Hex(x, count) == Hex(x / 16, count - 1) + [c]
  {
  }

  /** `uuid7` at 2025-05-01 00:00:00.001 UTC (1746057600001 ms) prints as `01968…`, as
      the date test in tests/test_core.py expects. The count is pinned by a `requires`, for
      the reason given at `OneMillisecondText`. */
  lemma May2025Text(layout: Layout, m: int, nowNs: int, rand5: seq<byte>)
    requires |rand5| == 5 && m == 1746057600001
    ensures Encode(layout, Millis(m), nowNs, rand5).Success?
    ensures Canonical(Encode(layout, Millis(m), nowNs, rand5).value)[..5] == "01968"
  {
    TimestampText(layout, m, nowNs, rand5);
    Hex12Prefix(m);
  }

  /** The first five of twelve digits of 1746057600001 (`0x019689249c01`), grouped as in
      the canonical string. */
  lemma Hex12Prefix(m: nat)
    requires m == 1746057600001
    ensures (Hex(m, 12)[..8] + "-" + Hex(m, 12)[8..] + "-7")[..5] == "01968"
  {
    var t := Hex(m, 12);
    assert t[..5] == "01968" by {
      HexTopFive(m);
    }
    assert (t[..8] + "-" + t[8..] + "-7")[..5] == t[..5];
  }

  /** `('%012x' % 1746057600001)[:5]`. */
  lemma HexTopFive(m: nat)
    requires m == 1746057600001
    ensures Hex(m, 12)[..5] == "01968"
  {
    assert Pow(16, 7) == 0x1000_0000;
    HexPrefix(m, 12, 5);
    Hex1968(m / 0x1000_0000);
  }

  /** `'%05x' % 0x1968`. */
  lemma Hex1968(x: nat)
    requires x == 0x1968
    ensures Hex(x, 5) == "01968"
  {
    var x1 := x / 16;
    var x2 := x1 / 16;
    var x3 := x2 / 16;
    assert x % 16 == 8 && x1 % 16 == 6 && x2 % 16 == 9 && x3 % 16 == 1 && x3 / 16 == 0;
    HexStep(x, 5, '8');
    HexStep(x1, 4, '6');
    HexStep(x2, 3, '9');
    HexStep(x3, 2, '1');
    HexZeros(1);
  }

  /** A smaller millisecond count gives a smaller canonical string, whatever the clock
      readings and entropy bytes. */
  lemma TextTimestampOrder(layout: Layout, m1: int, ns1: int, r1: seq<byte>, m2: int, ns2: int, r2: seq<byte>)
    requires |r1| == 5 && |r2| == 5
    requires 0 <= m1 < m2 < TimestampLimit
    ensures Encode(layout, Millis(m1), ns1, r1).Success? && Encode(layout, Millis(m2), ns2, r2).Success?
    ensures TextLess(Canonical(Encode(layout, Millis(m1), ns1, r1).value),
                     Canonical(Encode(layout, Millis(m2), ns2, r2).value))
  {
    TimestampOrder(layout, m1, ns1, r1, m2, ns2, r2);
    CanonicalOrder(Encode(layout, Millis(m1), ns1, r1).value, Encode(layout, Millis(m2), ns2, r2).value);
  }

  /** The strings `str(uuid7(i))` for rising integer arguments `i >= 0` are in ascending
      order, as the timestamp monotonicity test in tests/test_core.py expects of `range(1000, 2000)`. */
  lemma IntArgumentTextOrder(layout: Layout, n1: int, ns1: int, r1: seq<byte>, n2: int, ns2: int, r2: seq<byte>)
    requires |r1| == 5 && |r2| == 5
    requires 0 <= n1 < n2 && n2 * 1000 < TimestampLimit
    ensures Encode(layout, IntArgument(n1), ns1, r1).Success? && Encode(layout, IntArgument(n2), ns2, r2).Success?
    ensures TextLess(Canonical(Encode(layout, IntArgument(n1), ns1, r1).value),
                     Canonical(Encode(layout, IntArgument(n2), ns2, r2).value))
  {
    IntArgumentOrder(layout, n1, ns1, r1, n2, ns2, r2);
    CanonicalOrder(Encode(layout, IntArgument(n1), ns1, r1).value, Encode(layout, IntArgument(n2), ns2, r2).value);
  }

  /** The sub-millisecond test in tests/test_core.py sorts `str(uuid7())` over calls within one millisecond;
      for the clock readings 2^22 - 1 and 2^22 ns the later call's string sorts first. */
  lemma AsWrittenOutOfOrderText(m: int, r1: seq<byte>, r2: seq<byte>)
    requires |r1| == 5 && |r2| == 5 && 0 <= m < TimestampLimit
    ensures Encode(AsWritten, Millis(m), 0x3F_FFFF, r1).Success? && Encode(AsWritten, Millis(m), 0x40_0000, r2).Success?
    ensures TextLess(Canonical(Encode(AsWritten, Millis(m), 0x40_0000, r2).value),
                     Canonical(Encode(AsWritten, Millis(m), 0x3F_FFFF, r1).value))
  {
    AsWrittenOutOfOrder(m, r1, r2);
    CanonicalOrder(Encode(AsWritten, Millis(m), 0x40_0000, r2).value, Encode(AsWritten, Millis(m), 0x3F_FFFF, r1).value);
  }

  /** With the corrected layout, strings of one millisecond sort by serial, then entropy. */
  lemma ContiguousSameMillisecondText(m: int, ns1: int, r1: seq<byte>, ns2: int, r2: seq<byte>)
    requires |r1| == 5 && |r2| == 5 && 0 <= m < TimestampLimit
    ensures Encode(Contiguous, Millis(m), ns1, r1).Success? && Encode(Contiguous, Millis(m), ns2, r2).Success?
    ensures
      TextLess(Canonical(Encode(Contiguous, Millis(m), ns1, r1).value), Canonical(Encode(Contiguous, Millis(m), ns2, r2).value))
      <==> Serial(ns1) < Serial(ns2) || (Serial(ns1) == Serial(ns2) && BytesLess(r1, r2))
  {
    ContiguousSameMillisecond(m, ns1, r1, ns2, r2);
    CanonicalOrder(Encode(Contiguous, Millis(m), ns1, r1).value, Encode(Contiguous, Millis(m), ns2, r2).value);
  }
}

=== FILE: uuid7.dfy ===
/** The UUIDv7 codec of `src/edwh_uuid7/core.py`: `uuid7` on an integer argument or
    an injected millisecond count, and the integer part of `uuid7_to_datetime`.
    The byte layout is the one of RFC 9562 section 5.7 with the timestamp in
    octets 0-5, the version in the high nibble of octet 6 and the variant in the
    top two bits of octet 8. */
module Uuid7 {
  import opened Wrappers
  import opened Bits
  import opened Bytes

  /** A `uuid.UUID`, as its sixteen bytes (`UUID.bytes`). */
  type Uuid = s: seq<byte> | |s| == 16 witness [0, 0, 0, 0, 0, 0, 0, 0, 0, 0, 0, 0, 0, 0, 0, 0]

  /** `UUID('00000000-0000-0000-0000-000000000000')`. */
  const Nil: Uuid := [0, 0, 0, 0, 0, 0, 0, 0, 0, 0, 0, 0, 0, 0, 0, 0]

  /** `time.time_ns() % 1_000_000_000` keeps the nanoseconds within the second. */
  const NanosPerSecond := 1_000_000_000

  /** 2^48: the millisecond count must fit in the 48-bit timestamp field. */
  const TimestampLimit := 0x1_0000_0000_0000

  /** The argument of `uuid7` once it is an integer millisecond count: the integer `0`
      sentinel, or `ms_int` as computed on core.py line 42. */
  datatype Input = IntZero | Millis(msInt: int)

  /** `uuid7(n)` for a Python `int` argument `n`: zero is the sentinel, any other
      value is multiplied by 1000, so the argument counts seconds, not milliseconds. */
  function IntArgument(n: int): (i: Input)
    ensures i.IntZero? <==> n == 0
    ensures i.Millis? ==> i.msInt % 1000 == 0 && i.msInt / 1000 == n
  {
    if n == 0 then IntZero else Millis(n * 1000)
  }

  /** Where the nanosecond serial goes in octets 6-10. `AsWritten` is core.py's
      layout; `Contiguous` packs all 30 serial bits in order around the version
      and variant bits (see the same-millisecond lemmas in module Ordering). */
  datatype Layout = AsWritten | Contiguous

  /** The sub-second tie-breaker `serial = now_ns % 1_000_000_000`. Python's `%` with a
      positive divisor is never negative, as Dafny's is not. */
  function Serial(nowNs: int): (serial: nat)
    ensures serial < NanosPerSecond
    ensures (nowNs - serial) % NanosPerSecond == 0
  {
    nowNs % NanosPerSecond
  }

  /** `(ms_int << 16).to_bytes(8, 'big')[:6]`. */
  function TimestampBytes(msInt: int): (r: Result<seq<byte>, Overflow>)
    ensures r.Success? <==> 0 <= msInt < TimestampLimit
    ensures msInt < 0 ==> r == Failure(NegativeToUnsigned)
    ensures msInt >= TimestampLimit ==> r == Failure(TooBigToConvert)
    ensures r.Success? ==> |r.value| == 6 && FromBE(r.value) == msInt
  {
    assert Pow(256, 8) == TimestampLimit * 0x1_0000 && Shl(msInt, 16) == msInt * 0x1_0000 by {
      PowersOf256();
      PowersOfTwo();
      ShlIsMul(msInt, 16);
    }
    var full :- ToBytes(Shl(msInt, 16), 8);
    ShiftedBytes(msInt);
    Success(full[..6])
  }

  /** The low two bytes of `m << 16` are zero, and the six above them are `m`. */
  lemma ShiftedBytes(m: nat)
    requires m < TimestampLimit
    ensures BytesOf(m * 0x1_0000, 8) == BytesOf(m, 6) + [0, 0]
    ensures FromBE(BytesOf(m, 6)) == m
  {
    DivModUnique(m * 0x1_0000, 256, m * 0x100, 0);
    DivModUnique(m * 0x100, 256, m, 0);
    assert BytesOf(m * 0x1_0000, 8) == BytesOf(m * 0x100, 7) + [0];
    assert BytesOf(m * 0x100, 7) == BytesOf(m, 6) + [0];
    assert Pow(256, 6) == TimestampLimit by {
      PowersOf256();
    }
    ModSmall(m, Pow(256, 6));
  }

  /** The `rand` bytearray of core.py lines 53-69: five serial bytes, the first of
      them overwritten with the version, then the five entropy bytes. */
  function Tail(layout: Layout, serial: nat, rand5: seq<byte>): (t: seq<byte>)
    requires |rand5| == 5
    ensures |t| == 10 && t[5..] == rand5
    ensures t[0] / 16 == 7
    ensures t[2] / 64 == 2
  {
    var fields: seq<byte> := SerialFields(layout, serial);
    var low := BitAnd(fields[0], 0x0F);
    PowersOfTwo();
    OrHighBits(low, 7, 4);
    var b0: byte := BitOr(low, 0x70);
    [b0] + fields[1..] + rand5
  }

  /** `rand[0..5]` before the version is applied (core.py lines 56-62 for `AsWritten`). */
  function SerialFields(layout: Layout, serial: nat): (f: seq<byte>)
    ensures |f| == 5
    ensures f[2] / 64 == 2
  {
    PowersOfTwo();
    match layout
    case AsWritten =>
      var mid := BitAnd(Shr(serial, 16), 0x3F);
      OrHighBits(mid, 2, 6);
      var r0: byte := BitAnd(Shr(serial, 32), 0x0F);
      var r1: byte := BitAnd(Shr(serial, 24), 0xFF);
      var r2: byte := BitOr(mid, 0x80);
      var r3: byte := BitAnd(Shr(serial, 8), 0xFF);
      var r4: byte := BitAnd(serial, 0xFF);
      [r0, r1, r2, r3, r4]
    case Contiguous =>
      var mid := BitAnd(Shr(serial, 12), 0x3F);
      OrHighBits(mid, 2, 6);
      var low := BitAnd(serial, 0x0F);
      ShlIsMul(low, 4);
      var r0: byte := BitAnd(Shr(serial, 26), 0x0F);
      var r1: byte := BitAnd(Shr(serial, 18), 0xFF);
      var r2: byte := BitOr(mid, 0x80);
      var r3: byte := BitAnd(Shr(serial, 4), 0xFF);
      var r4: byte := Shl(low, 4);
      [r0, r1, r2, r3, r4]
  }

  /** The version and variant tags of RFC 9562: version 7 in the high nibble of
      octet 6 (section 4.2) and variant `10` in the top bits of octet 8 (section 4.1). */
  predicate HasV7Tags(u: Uuid) {
    u[6] / 16 == 7 && u[8] / 64 == 2
  }

  /** `uuid7(ms)` once its argument is an integer millisecond count (core.py lines 31-72),
      with the clock reading `nowNs` and the five entropy bytes `rand5` passed in. */
  function Encode(layout: Layout, input: Input, nowNs: int, rand5: seq<byte>): (r: Result<Uuid, Overflow>)
    requires |rand5| == 5
    ensures input.IntZero? ==> r == Success(Nil)
    ensures input.Millis? ==> (r.Success? <==> 0 <= input.msInt < TimestampLimit)
    ensures input.Millis? && input.msInt < 0 ==> r == Failure(NegativeToUnsigned)
    ensures input.Millis? && input.msInt >= TimestampLimit ==> r == Failure(TooBigToConvert)
    ensures input.Millis? && r.Success? ==>
      && FromBE(r.value[..6]) == input.msInt
      && HasV7Tags(r.value)
      && r.value[6..] == Tail(layout, Serial(nowNs), rand5)
      && r.value[11..] == rand5
  {
    match input
    case IntZero => Success(Nil)
    case Millis(msInt) =>
      var timestamp :- TimestampBytes(msInt);
      var tail := Tail(layout, Serial(nowNs), rand5);
      var u: Uuid := timestamp + tail;
      assert u[..6] == timestamp && u[6..] == tail;
      Success(u)
  }

  /** The variants `uuid.UUID.variant` distinguishes. */
  datatype Variant = ReservedNcs | Rfc4122 | ReservedMicrosoft | ReservedFuture

  /** `UUID.variant`: tests bits 63, 62 and 61 of `UUID.int`, with the masks
      `0x8000 << 48`, `0x4000 << 48` and `0x2000 << 48` written out. The variant read
      off the integer is the one RFC 9562 section 4.1 reads off the top bits of octet 8. */
  function VariantOf(u: Uuid): (v: Variant)
    ensures v == OctetVariant(u[8])
  {
    assert FromBE(u) / 0x100_0000_0000_0000 == FromBE(u[..8]) * 256 + u[8] by {
      OctetValue(u, 8);
      PowersOf256();
    }
    VariantBits(FromBE(u), FromBE(u[..8]), u[8]);
    IntVariant(FromBE(u))
  }

  /** The mask tests of `UUID.variant` on the integer `n`. */
  function IntVariant(n: nat): Variant {
    if BitAnd(n, 0x8000_0000_0000_0000) == 0 then ReservedNcs
    else if BitAnd(n, 0x4000_0000_0000_0000) == 0 then Rfc4122
    else if BitAnd(n, 0x2000_0000_0000_0000) == 0 then ReservedMicrosoft
    else ReservedFuture
  }

  /** The variant table of RFC 9562 section 4.1, read off octet 8 by its top bits. */
  function OctetVariant(b: byte): Variant {
    if b < 0x80 then ReservedNcs
    else if b < 0xC0 then Rfc4122
    else if b < 0xE0 then ReservedMicrosoft
    else ReservedFuture
  }

  /** `UUID.version`: `(UUID.int >> 76) & 0xf`, defined only for the RFC 4122 variant.
      It is the high nibble of octet 6 (RFC 9562 section 4.2) when octet 8 starts with
      the bits `10`, and `None` otherwise. */
  function Version(u: Uuid): (r: Option<nat>)
    ensures r == if u[8] / 64 == 2 then Some(u[6] / 16) else None
  {
    assert FromBE(u) / 0x100_0000_0000_0000_0000 == FromBE(u[..6]) * 256 + u[6] by {
      OctetValue(u, 6);
      PowersOf256();
    }
    VersionNibble(FromBE(u), FromBE(u[..6]), u[6]);
    if VariantOf(u) == Rfc4122 then Some(BitAnd(Shr(FromBE(u), 76), 0xf)) else None
  }

  /** The three masks of `UUID.variant` test bits 7, 6 and 5 of the octet `b`
      sitting at bits 56-63 of `n`. */
  lemma VariantBits(n: nat, hi: nat, b: byte)
    requires n / 0x100_0000_0000_0000 == hi * 256 + b
    ensures IntVariant(n) == OctetVariant(b)
  {
    VariantMasks(n);
    OctetBits(n, hi, b);
    if b < 0x80 {
      assert b / 0x80 == 0;
    } else if b < 0xC0 {
      assert b / 0x80 == 1 && b / 0x40 % 2 == 0;
    } else if b < 0xE0 {
      assert b / 0x80 == 1 && b / 0x40 % 2 == 1 && b / 0x20 % 2 == 0;
    } else {
      assert b / 0x80 == 1 && b / 0x40 % 2 == 1 && b / 0x20 % 2 == 1;
    }
  }

  /** Each variant mask is a single-bit test. */
  lemma VariantMasks(n: nat)
    ensures BitAnd(n, 0x8000_0000_0000_0000) == 0 <==> n / 0x8000_0000_0000_0000 % 2 == 0
    ensures BitAnd(n, 0x4000_0000_0000_0000) == 0 <==> n / 0x4000_0000_0000_0000 % 2 == 0
    ensures BitAnd(n, 0x2000_0000_0000_0000) == 0 <==> n / 0x2000_0000_0000_0000 % 2 == 0
  {
    PowersOfTwoWide();
    AndSingleBit(n, 63);
    AndSingleBit(n, 62);
    AndSingleBit(n, 61);
  }

  /** Bits 63, 62 and 61 of `n` are bits 7, 6 and 5 of its octet at bits 56-63. */
  lemma OctetBits(n: nat, hi: nat, b: byte)
    requires n / 0x100_0000_0000_0000 == hi * 256 + b
    ensures n / 0x8000_0000_0000_0000 % 2 == b / 0x80
    ensures n / 0x4000_0000_0000_0000 % 2 == b / 0x40 % 2
    ensures n / 0x2000_0000_0000_0000 % 2 == b / 0x20 % 2
  {
    DivDiv(n, 0x100_0000_0000_0000, 0x80);
    DivDiv(n, 0x100_0000_0000_0000, 0x40);
    DivDiv(n, 0x100_0000_0000_0000, 0x20);
    TopBitsOfOctet(hi, b);
  }

  /** Bits 7, 6 and 5 of the last octet of `x * 256 + b` are those of `b`. */
  lemma TopBitsOfOctet(x: nat, b: byte)
    ensures (x * 256 + b) / 0x80 % 2 == b / 0x80
    ensures (x * 256 + b) / 0x40 % 2 == b / 0x40 % 2
    ensures (x * 256 + b) / 0x20 % 2 == b / 0x20 % 2
  {
    assert (x * 256 + b) / 0x80 == 2 * x + b / 0x80;
    assert (x * 256 + b) / 0x40 == 2 * (2 * x) + b / 0x40;
    assert (x * 256 + b) / 0x20 == 2 * (4 * x) + b / 0x20;
    Parity((x * 256 + b) / 0x80, x, b / 0x80);
    Parity((x * 256 + b) / 0x40, 2 * x, b / 0x40);
    Parity((x * 256 + b) / 0x20, 4 * x, b / 0x20);
  }

  /** Bits 76-79 of an integer whose bits 72-79 are the octet `b` are the high nibble of `b`. */
  lemma VersionNibble(n: nat, hi: nat, b: byte)
    requires n / 0x100_0000_0000_0000_0000 == hi * 256 + b
    ensures BitAnd(Shr(n, 76), 0xf) == b / 16
  {
    assert Shr(n, 76) == n / 0x1000_0000_0000_0000_0000 by {
      ShrIsDiv(n, 76);
      PowerOfTwoVersion();
    }
    assert n / 0x1000_0000_0000_0000_0000 == (hi * 256 + b) / 16 by {
      DivDiv(n, 0x100_0000_0000_0000_0000, 16);
    }
    assert (hi * 256 + b) / 16 == hi * 16 + b / 16;
    DivModUnique(hi * 16 + b / 16, 16, hi, b / 16);
    PowersOfTwo();
    AndLowMask(hi * 16 + b / 16, 4);
  }

  /** The guard of core.py lines 86-87 accepts exactly the UUIDs tagged version 7, variant RFC 4122. */
  lemma VersionGuard(u: Uuid)
    ensures Version(u) == Some(7) <==> HasV7Tags(u)
  {
  }

  /** `int.from_bytes(u[:6] + b'\x00\x00', 'big') >> 16` is the value of the first six bytes. */
  lemma TopSixBytes(u: Uuid)
    ensures Shr(FromBE(u[..6] + [0, 0]), 16) == FromBE(u[..6])
  {
    var padded := u[..6] + [0, 0];
    assert FromBE(padded) == FromBE(u[..6]) * 0x1_0000 by {
      FromBEConcat(u[..6], [0, 0]);
      assert [0, 0][..1] == [0];
      PowersOf256();
    }
    assert Shr(FromBE(padded), 16) == FromBE(padded) / 0x1_0000 by {
      ShrIsDiv(FromBE(padded), 16);
      PowersOfTwo();
    }
  }

  /** The integer part of `uuid7_to_datetime` (core.py lines 86-91): `None` unless the
      UUID is version 7, else the top 48 bits as a millisecond count. */
  function Decode(u: Uuid): (r: Option<nat>)
    ensures r.None? <==> !HasV7Tags(u)
    ensures r.Some? ==> r.value == FromBE(u[..6]) && r.value < TimestampLimit
  {
    VersionGuard(u);
    if Version(u) != Some(7) then None
    else
      TopSixBytes(u);
      assert Pow(256, 6) == TimestampLimit by {
        PowersOf256();
      }
      Some(Shr(FromBE(u[..6] + [0, 0]), 16))
  }

  /** Every UUID `uuid7` builds from a millisecond count reads back as `UUID.version == 7`
      with the RFC 4122 variant, as the structure test in tests/test_core.py expects. */
  lemma VersionAndVariant(layout: Layout, m: int, nowNs: int, rand5: seq<byte>)
    requires |rand5| == 5 && 0 <= m < TimestampLimit
    ensures Encode(layout, Millis(m), nowNs, rand5).Success?
    ensures VariantOf(Encode(layout, Millis(m), nowNs, rand5).value) == Rfc4122
    ensures Version(Encode(layout, Millis(m), nowNs, rand5).value) == Some(7)
  {
  }

  /** Decoding what `uuid7` encoded gives back its millisecond count. */
  lemma RoundTrip(layout: Layout, m: int, nowNs: int, rand5: seq<byte>)
    requires |rand5| == 5 && 0 <= m < TimestampLimit
    ensures Encode(layout, Millis(m), nowNs, rand5).Success?
    ensures Decode(Encode(layout, Millis(m), nowNs, rand5).value) == Some(m)
  {
  }

  /** `uuid7(0)` is the nil UUID, and `uuid7_to_datetime` rejects it. */
  lemma NilSentinel(layout: Layout, nowNs: int, rand5: seq<byte>)
    requires |rand5| == 5
    ensures Encode(layout, IntArgument(0), nowNs, rand5) == Success(Nil)
    ensures Decode(Nil) == None
  {
    assert !HasV7Tags(Nil);
  }

  /** A UUID whose octet 8 starts with a 0 bit, the nil UUID among them, has the NCS
      variant, so its `UUID.version` is `None`, not 7. */
  lemma NcsHasNoVersion(u: Uuid)
    requires u[8] < 0x80
    ensures VariantOf(u) == ReservedNcs && Version(u) == None
  {
  }

  /** A non-zero integer argument `n` counts seconds: it encodes as `n * 1000` milliseconds,
      fails for negative `n`, and overflows above `(2^48 - 1) / 1000`. */
  lemma IntArgumentMillis(layout: Layout, n: int, nowNs: int, rand5: seq<byte>)
    requires |rand5| == 5 && n != 0
    ensures n < 0 ==> Encode(layout, IntArgument(n), nowNs, rand5) == Failure(NegativeToUnsigned)
    ensures n > 281_474_976_710 ==> Encode(layout, IntArgument(n), nowNs, rand5) == Failure(TooBigToConvert)
    ensures 0 < n <= 281_474_976_710 ==>
      && Encode(layout, IntArgument(n), nowNs, rand5).Success?
      && Decode(Encode(layout, IntArgument(n), nowNs, rand5).value) == Some(n * 1000)
  {
    if n > 281_474_976_710 {
      assert n * 1000 >= TimestampLimit;
    } else if n > 0 {
      RoundTrip(layout, n * 1000, nowNs, rand5);
    }
  }
}

=== FILE: wrappers.dfy ===
/** Failure-compatible wrappers: `Option` for Python's `None`-or-value returns and
    `Result` for operations that can raise. */
module Wrappers {

  /** A value, or Python's `None`. */
  datatype Option<+T> = None | Some(value: T)

  /** A successful value, or the exception the operation would raise. */
  datatype Result<+T, +E> = Success(value: T) | Failure(error: E) {

    predicate IsFailure() {
      Failure?
    }

    function PropagateFailure<U>(): Result<U, E>
      requires Failure?
    {
      Failure(error)
    }

    function Extract(): T
      requires Success?
    {
      value
    }
  }
}
